=== FILE: README.md ===
# U.S. labor-market dashboard: collector and view logic in Dafny

This project models the core of a small pipeline built on the Bureau of Labor Statistics (BLS) API. It has two parts:

- The **collector** (`collect.py`) asks the API for six fixed series, one request per series, each covering the current year and the two years before it. It skips items that are not monthly (`M13` included) or whose value does not parse, aborts on a bad month number or year, turns every kept monthly item of an answer into a flat record, and fails when nothing at all was collected. It then parses the date texts, drops the rows whose dates pandas cannot read, and sorts the table by `(series_name, date)`.
- The **dashboard** (`app.py`) loads that table and drops incomplete rows. It sorts by `(series_id, date)` and adds two columns: a unit label, and the year-over-year (YoY) change, which is `pct_change(periods=12)` within each series. It then applies a time window ("Last 12 months" or "All data") and a series selection. It produces the rows a chart plots in "levels" or "YoY" mode, and a summary of the latest month shown.

Files and modules:

- `wrappers.dfy` (`Wrappers`): `Option` and `Result`.
- `text.dfy` (`Text`): Python's `int()` and `float()` on plain decimal texts, `str(n)`, and the order of `str` values.
- `dates.dfy` (`Dates`): first-of-month dates as `(year, month)`, `f"{m:02d}"`, and `pd.to_datetime` on the `YYYY-MM-01` texts the collector builds.
- `observations.dfy` (`Observations`): the stored row, the two sort orders, and the order-keeping filter behind pandas boolean masks.
- `collect.dfy` (`Collect`): the collector.
- `dashboard.dfy` (`Dashboard`): the dashboard.

How the code is represented:

- **Boundaries.** The network is a function parameter `api` from a request to a decoded payload. The clock's year is the parameter `currentYear`. The Streamlit widgets (window, series selection, view mode) are parameters of `Dashboard.Dashboard`.
- **Numbers.** Values are `real`.
- **Dates.** A date is a `(year, month)` pair with the month in 1..12. Every date the program builds or loads is the first day of a month.
- **Errors.** An exception is a `Failure` of a `Result`, and a pandas `NaN`/`NaT` is `None`.

Behaviour of the code that a reader might not expect, and that the model keeps:

- **Bad period or year.** A monthly item (other than `M13`) whose period number is not an integer stops the whole run, because `int(period[1:])` (collect.py:66) runs before the value check. A bad year stops the run only for an item whose value parses: an unparseable value reaches `continue` (collect.py:73) before `int(year)` (collect.py:83) runs. The model aborts the run with `BadPeriodNumber` or `BadYear` in exactly these cases.
- **YoY lookback.** `pct_change(periods=12)` compares a row with the row twelve positions earlier in its sorted series, whatever the dates of the two rows. The model does the same, and `Dashboard.YoyIsCalendarYearWithoutGaps` states when the result is the same month one year earlier.
- **Duplicate rows.** Nothing makes `(series_id, date)` unique, and the collector keeps repeated items (`Collect.CollectedTableCounts`). Two rows of one series in one month can stop the page, in one of two ways.
  - Both rows are plotted in one chart. That needs both to be selected and inside the window, and in YoY mode both to have a YoY value (`Dashboard.LevelsChartClash`, `Dashboard.YoyChartClash`). Then `pivot` raises "Index contains duplicate entries" (app.py:132) before the summary is built; the model returns `Failure(DuplicateChartEntries)`.
  - The pivot passes, and a selected series has two rows in the full table at the summary date. Then `reindex` raises (app.py:151); the model returns `Failure(DuplicateSeriesLabels)`.
  - Duplicates outside the window or the selection stop nothing. Neither do duplicates in YoY mode that lack a YoY value and are not at the summary date. In levels mode only the first stop can happen (`Dashboard.LevelsModeStopsAtChart`).
- **Invalid dates.** A run whose only records have invalid dates (such as `M14`) passes the "no records" check, because that check happens before dates are parsed. It ends with an empty table, as the code does.

## Model

| member | source | states |
|---|---|---|
| Text.ParseInt | collect.py:66 | The modelled `int()` accepts only an optional sign followed by ASCII digits, or ASCII digits alone. A result is negative only after a `-`, and an unsigned digit text reads as its decimal value. |
| Text.ParseIntRoundTrip | collect.py:66 | `int()` reads back every integer `str()` writes. |
| Text.ParseIntRejects | collect.py:66 | The modelled `int()` rejects an empty text (as for period `M`), a lone sign, and a text with a character other than an ASCII digit after an optional leading sign. |
| Text.ParseFloat | collect.py:70-71 | The modelled `float()` accepts only texts that start with a digit, a point or a sign. A result is negative only after a `-`. |
| Text.UnsignedIff | collect.py:70-73 | The unsigned decimal parser accepts a text iff it holds only digits and points, at most one point, and at least one digit. |
| Text.ParseFloatIff | collect.py:70-73 | `float()` succeeds iff the text is an optional sign followed by such a decimal body. Any other value, such as `1a`, `1.2.3` or `.`, raises, and the item is skipped. |
| Text.ParseFloatDecimal | collect.py:70-71 | `float()` reads a literal `w.f` as the number it denotes. |
| Text.ParseFloatInteger | collect.py:70-71 | `float()` reads an integer literal as that integer. |
| Text.ParseFloatRejectsSignOnly | collect.py:70-73 | The empty text and a lone sign make `float()` raise, so such an item is skipped. |
| Text.StrLeTotal | collect.py:95 | Any two `str` keys are ordered one way or the other, so sorting on them is defined. |
| Text.StrLeAntisymmetric | collect.py:95 | Two keys ordered both ways are equal. |
| Text.StrLeTransitive | collect.py:95 | The `str` order is transitive. |
| Dates.TwelveMonthsBefore | app.py:100 | `date - DateOffset(months=12)` on a first-of-month date is exactly twelve months earlier and strictly before it. |
| Dates.Pad2Facts | collect.py:67 | `f"{m:02d}"` is at least two characters. It is exactly two digits spelling `m` iff `0 <= m < 100`. |
| Dates.ParseIsoDate | collect.py:93 | `pd.to_datetime` on a date text yields a date only for a ten-character text, and the date's year lies in 0..9999. |
| Dates.DateTextRoundTrip | collect.py:67 | The text built from a year text and a month parses to that first-of-month date iff the year has four digits and the month is 1..12. Otherwise (M00, M14, ...) it parses to NaT. |
| Dates.IsoTextRoundTrip | app.py:34 | The ISO text written for a date with a four-digit year reads back as the same date. `Dashboard.Stored` uses this text for the date cell. |
| Observations.SortBy | collect.py:95 | `sort_values([col, "date"])` returns a permutation of the rows, ascending by (text column, date). |
| Observations.Insert | collect.py:95 | Inserting a row into a sorted table keeps it sorted and adds exactly that row. |
| Observations.SortedGroupsContiguous | app.py:38 | After sorting on a text column, the rows sharing its value form one contiguous block. |
| Observations.Filter | app.py:101 | A boolean mask keeps exactly the rows satisfying it. |
| Observations.FilterKeepsOrder | app.py:101 | The kept rows stay in their original relative order. |
| Observations.FilterCount | app.py:101 | A kept row keeps its full multiplicity, and a dropped row is gone. |
| Observations.FilterNarrow | app.py:147-148 | Masking with a wider mask and then a narrower one equals masking with the narrower one alone. |
| Collect.RequestFor | collect.py:47-48 | Every request covers `[currentYear - 2, currentYear]`. |
| Collect.FetchSeries | collect.py:33-37 | An answer yields data iff its status is `REQUEST_SUCCEEDED` and it has a data list. Any other status is an API error carrying the API's message. |
| Collect.NormalizeItem | collect.py:56-85 | Per item, in the code's order: a non-`M` period or `M13` is skipped; a bad month suffix aborts; an unparseable value is skipped; a bad year aborts. An item whose period is a month code other than `M13` and whose month number, value and year all parse is kept. A kept record carries the catalog names, the parsed value and year, and the date text built from the year and month. |
| Collect.NormalizeItemDateAgrees | collect.py:66-83 | Once parsed, a kept record's date has the record's year and month `int(period[1:])`. |
| Collect.NormalizeItems | collect.py:56-85 | The loop over one answer succeeds iff no item aborts. Its records are then exactly those of the kept items, so a skip never stops the loop. |
| Collect.NormalizeItemsPerItem | collect.py:56-85 | A successful loop appends exactly one record per kept item, in item order. |
| Collect.NormalizeItemsFirstAbort | collect.py:56-85 | A failed loop reports the error of the first item that raises. |
| Collect.NormalizeItemsNothing | collect.py:56-85 | The loop yields no record and no error iff every item is skipped. |
| Collect.DateTextAgrees | collect.py:66-67 | A date text built from a year `int()` accepts has, once parsed, that year and the month it was built from. |
| Collect.FetchOnePass | collect.py:52-85 | One pass of the outer loop succeeds iff the answer parses and none of its items raises. An answer whose status is not `REQUEST_SUCCEEDED` fails the pass with an API error for this series. Every record of a successful pass carries the entry's name and identifier and a month code other than `M13`. |
| Collect.FetchAll | collect.py:52-54 | One request per catalog entry, in catalog order, each for the required year range. A completed loop requested every series. |
| Collect.FetchAllGathers | collect.py:52-85 | A completed loop's records are every record of every pass, concatenated in catalog order, repeated records included. |
| Collect.FetchAllStopsAtFirstError | collect.py:52-85 | A failed loop stops at the first failing pass: its last request belongs to that pass, the loop's error is that pass's error, and every earlier pass succeeded. |
| Collect.FetchAllRecordsFrom | collect.py:52-85 | A completed loop completed every pass, and its records are exactly those of the passes over the catalog entries. |
| Collect.FetchAllFetchedEverySeries | collect.py:52-54 | A completed loop got a successful answer for every series. |
| Collect.FetchAllRecordFacts | collect.py:75-84 | Every record comes from a catalog entry, has a month code other than `M13`, and has a date agreeing with its year and period. |
| Collect.FetchAllApiError | collect.py:33-34 | An API error names a requested series whose answer did not report success. |
| Collect.NormalizeItemsNeverApiError | collect.py:66-83 | Items only ever raise on a bad month number or a bad year. |
| Collect.FetchAllNeverNoRecords | collect.py:87-88 | The fetch loop itself never reports "no records". That check comes after it. |
| Collect.FetchAllNothing | collect.py:87-88 | The loop ends with no records iff every series answered and every one of its items was skipped. |
| Collect.ParseDates | collect.py:93-94 | `to_datetime(errors="coerce")` followed by `dropna` keeps exactly the records whose date text parses, each as a row with that date. |
| Collect.ParseDatesPerRecord | collect.py:93-94 | Every record with a valid date becomes exactly one row, in record order, and no other row is made. |
| Collect.Clean | collect.py:93-95 | The written table is a permutation of the rows made from the records with a valid date, duplicates included, sorted by `(series_name, date)`. |
| Collect.CollectData | collect.py:40-95 | The requests follow the catalog order and each covers the year range. A successful run requested every series, and its table is sorted by `(series_name, date)`. |
| Collect.CollectDataNoRecords | collect.py:87-88 | The run fails with "no records" iff every series answers and every item of every answer is skipped. |
| Collect.CollectedRows | collect.py:56-95 | Each row of a collected table belongs to a catalog series and comes from a month code other than `M13`. Its date is the first day of month `int(period[1:])`, and its `year` column is the year of its date. |
| Collect.CollectedTableIsKeptRows | collect.py:52-95 | A collected table holds exactly the rows made from kept items of the catalog series' answers whose date texts parse. No such item is lost, and nothing else gets in. The multiplicities are stated by `Collect.CollectedTableCounts`. |
| Collect.CollectedTableCounts | collect.py:75-95 | The collected table holds the rows of the gathered records with a valid date, each as many times as it was gathered. Two identical items give two rows. |
| Collect.CollectFailsOnApiError | collect.py:33-34 | Any series whose answer is not a success makes the run fail, and an API error always names such a requested series. |
| Dashboard.DropIncomplete | app.py:35-37 | The `dropna` calls keep exactly the stored rows whose date and value are both present. |
| Dashboard.DropIncompletePerRow | app.py:35-37 | Every complete stored row becomes exactly one row, in file order. |
| Dashboard.LoadData | app.py:30-39 | `load_data` returns a permutation of the complete rows, sorted by `(series_id, date)`. No row lacks a date or a value. |
| Dashboard.Stored | app.py:34 | The written table read back has one row per table row. A row whose date has a four-digit year reads back complete and equal to the row written. |
| Dashboard.StoreThenLoad | app.py:34-38 | A table whose dates have four-digit years, written with ISO date texts, loads back as the same multiset of rows, sorted by `(series_id, date)`. |
| Dashboard.DropStoredKeepsAll | app.py:35-37 | Dropping incomplete rows from a written table with four-digit years removes nothing and keeps the order. |
| Dashboard.UnitOf | app.py:49 | The unit is the mapped label for a known series name and `Other` for any other name. It is always one of the four labels. |
| Dashboard.CatalogSeriesHaveUnits | app.py:10-17 | Every series the collector fetches has a unit other than `Other`. |
| Dashboard.YoyAt | app.py:52 | The grouped `pct_change(periods=12)` at row `i`, taken against the value twelve places back among the earlier rows of the row's series. The first twelve rows of the table never have a value; `Dashboard.YoyLooksTwelveRowsBack` states the general case. |
| Dashboard.YoyColumnAt | app.py:52 | The column built row by row holds, at every row, the grouped `pct_change(12)` value of that row. |
| Dashboard.HistoryStep | app.py:52 | Remembering each row's value under its series keeps the per-series history equal to the series' earlier values. |
| Dashboard.YoyFromHistory | app.py:52 | A row's YoY value needs only its own series' earlier values. |
| Dashboard.ComputeYoy | app.py:52 | A single pass that remembers each series' earlier values computes, at every row, the grouped `pct_change(12)` defined on the row's series prefix. |
| Dashboard.YoyLooksTwelveRowsBack | app.py:52 | On the sorted table, row `i` gets a YoY value iff row `i-12` exists and is in the same series. The value is then computed from those two rows, whatever their dates. |
| Dashboard.YoySameSeries | app.py:52 | When row `i-12` shares row `i`'s series, it is the YoY base. |
| Dashboard.BlockInSeries | app.py:52 | On the sorted table, every row between two rows of one series belongs to that series. |
| Dashboard.YoyWithFullBlock | app.py:52 | When the twelve rows before row `i` all belong to its series, the first of them is the YoY base. |
| Dashboard.YoyOtherSeries | app.py:52 | When row `i-12` belongs to another series, fewer than twelve earlier rows share the series and there is no YoY value. |
| Dashboard.YoyIsCalendarYearWithoutGaps | app.py:52 | When the twelve rows before row `i` are consecutive months of its series, the base is the same month one year earlier. |
| Dashboard.DeriveColumns | app.py:49-52 | Adding the columns keeps every row and its order. |
| Dashboard.LatestDate | app.py:60 | `date.max()` is NaT for no rows. Otherwise it is a date some row has and no row exceeds. |
| Dashboard.ApplyWindow | app.py:99-103 | "All data" keeps every row. "Last 12 months" keeps exactly the rows no more than twelve months older than the latest date of the whole table (`date >= latest - 12 months`). |
| Dashboard.WindowKeepsOrder | app.py:99-103 | The window keeps the admitted rows in table order. |
| Dashboard.SelectSeries | app.py:105 | Keeps exactly the windowed rows whose series is selected. |
| Dashboard.SelectionKeepsOrder | app.py:105 | The series filter keeps the selected rows in their order. |
| Dashboard.PlotPoints | app.py:114-120 | In YoY mode there is exactly one point per row with a YoY value, in row order, plotting that value in unit `Percent (YoY)`; repeated rows give repeated points. In levels mode every row is plotted with its value and unit. |
| Dashboard.PivotClash | app.py:128-132 | A chart clashes only when it has two points, and never when all its points are in different months. |
| Dashboard.RowsAt | app.py:147-149 | The lookup keeps exactly the rows of that series at that date. |
| Dashboard.Summary | app.py:147-161 | One tile per selected series, in selection order. A tile is N/A iff the full table has no row of that series at the date; otherwise it shows such a row's level and YoY. Two rows of a selected series at the date make `reindex` raise. |
| Dashboard.SummaryByLookups | app.py:151-152 | The summary depends on a table only through the per-series rows found at the date. |
| Dashboard.Dashboard | app.py:88-161 | The page stops at the first guard that fails, each iff its condition holds given the earlier ones: an empty selection; no windowed, selected row; a chart pivot with duplicate entries; a duplicate label in the summary lookup. Otherwise it is shown. The shown rows are the windowed, selected rows, the summary date is the latest date shown, and the summary is looked up in the full table. |
| Dashboard.LevelsChartClash | app.py:119-132 | In levels mode a chart's pivot clashes iff the shown rows hold two rows of one series in one month. |
| Dashboard.YoyChartClash | app.py:114-132 | In YoY mode a chart's pivot clashes iff the rows with a YoY value hold two rows of one series in one month, identical rows included. |
| Dashboard.LevelsModeStopsAtChart | app.py:128-152 | In levels mode the summary's `reindex` never raises, because its duplicate rows are shown and the chart pivot stops the page first. |
| Dashboard.ShownRowsKeepFullTableColumns | app.py:51-105 | The shown rows are exactly the full-table rows that are selected and inside the window. Each keeps the unit and the YoY value computed on the full table, so filtering never changes a surviving row's YoY. |
| Dashboard.WithinYearIsVisible | app.py:99-101 | The window test on the derived rows is the same as the test on the loaded table. |
| Dashboard.NoDataExactly | app.py:107-109 | The "no data" stop happens iff a series is selected but no selected row of the table lies inside the window. |
| Dashboard.SummaryAgreesWithShownRows | app.py:143-152 | The full-table lookup at the latest shown month finds exactly the rows the filtered view holds for that month. |
| Dashboard.LookupSeesFilteredRows | app.py:143-149 | For a selected series, the rows at the latest shown date are the same in the full table and in the filtered view. |

## Left out

- HTTP transport (`requests.get`, `raise_for_status`, JSON decoding, the timeout): the API is the parameter `api`, which returns an already decoded payload.
- `datetime.now()`: the current year is a parameter.
- Writing and reading the CSV file, creating the directory, and the `print` calls: the stored file is `Dashboard.StoredRow` values, and `Dashboard.StoreThenLoad` relates writing to loading.
- The Streamlit page: page configuration, caching, sidebar widgets, the default selection and sorted option list (app.py:68-86), drawing the charts (only the pivot's duplicate-entry error is modelled), the `Month` label column (the pivot compares dates, which the labels spell one-to-one), number formatting, and the data table and download button. The choices the widgets return are parameters.
- The plot order `sort_values(["date", "series_name"])` (app.py:122): `Dashboard.PlotPoints` keeps the rows in table order, because only the set of points drawn matters to a chart.
- IEEE floats: values are exact reals, and `NaN`/`inf` never arise.
- Dashboard.PctChange: a zero base gives `None`, where pandas produces `inf` (or `NaN` for `0/0`). Such a row is then removed by the YoY `dropna` (app.py:115) and never plotted, while pandas keeps and plots an `inf` value. So in the model such rows can never cause a YoY pivot clash.
- Text.ParseFloat: accepts only an optional sign, ASCII digits and one optional decimal point. Python's `float()` also accepts surrounding whitespace, underscores between digits, exponents, `nan`, `inf` and non-ASCII decimal digits (such as `"٣"`), which the BLS API does not send.
- Text.ParseInt: accepts only an optional sign and ASCII digits. Python's `int()` also accepts surrounding whitespace (`int("12 ") == 12`), underscores between digits (`int("1_2") == 12`) and non-ASCII decimal digits (`int("٣") == 3`).
- Dates.ParseIsoDate: only texts of the form `YYYY-MM-01` with a four-digit year are dates. pandas' wider set of accepted formats and its timestamp range (years 1677 to 2262) are not modelled.
- Dashboard.DropIncomplete: a date cell holding text that is not a date is not represented. `read_csv(parse_dates=...)` would keep such a column as text, and `dt.strftime` (app.py:55) would then raise. The collector never writes such a cell. `Dashboard.Stored` reads a date whose year lies outside 1000..9999 as missing. No pandas timestamp has such a year.
- Observations.SortBy: stability (equal keys keeping their input order) is not stated. Rows with equal `(text, date)` keys may come out in any order.
- Dashboard.StoreThenLoad: stated only for dates with four-digit years, the ones whose written ISO text reads back. pandas timestamps lie in years 1677 to 2262, so every date a real table holds has one.

=== FILE: collect.dfy ===
/** The collector (`collect.py`): asks the statistics API for every catalog
    series over the last three calendar years, turns the monthly items of
    each answer into flat records, and builds the sorted table that is
    written out. The network is the parameter `api`, the current year the
    parameter `currentYear`; writing the file is not modelled. */
module Collect {
  import opened Wrappers
  import opened Text
  import opened Dates
  import opened Observations

  /** One entry of `SERIES`: display name and API series identifier. */
  datatype CatalogEntry = CatalogEntry(seriesName: string, seriesId: string)

  /** `SERIES`, in its insertion order (the order of `SERIES.items()`). */
  const Catalog: seq<CatalogEntry> := [
    CatalogEntry("Total Nonfarm Employment", "CES0000000001"),
    CatalogEntry("Unemployment Rate", "LNS14000000"),
    CatalogEntry("Labor Force Participation Rate", "LNS11300000"),
    CatalogEntry("Average Hourly Earnings for Private Employees", "CES0500000003"),
    CatalogEntry("Manufacturing Employment", "CES3000000001"),
    CatalogEntry("Education and Health Services Employment", "CES6500000001")
  ]

  /** One element of the answer's `data` list; a missing key is `None`. */
  datatype Item = Item(
    period: Option<string>,
    year: Option<string>,
    value: Option<string>,
    periodName: Option<string>)

  /** A decoded API answer: its `status`, its `message`, and the `data` list
      of its first series (`None` when that path is absent). */
  datatype Payload = Payload(status: Option<string>, message: Option<string>, data: Option<seq<Item>>)

  const RequestSucceeded: string := "REQUEST_SUCCEEDED"

  /** Everything that aborts a collection run. */
  datatype CollectError =
    | ApiError(seriesId: string, message: Option<string>)
    | MissingSeriesData(seriesId: string)
    | BadPeriodNumber(period: string)
    | BadYear(year: string)
    | NoRecords

  /** The query `fetch_series` sends: series identifier and year range. */
  datatype Request = Request(seriesId: string, startYear: int, endYear: int)

  /** The range `collect_data` asks for: the current year and the two before. */
  function RequestFor(seriesId: string, currentYear: int): (q: Request)
    ensures q.seriesId == seriesId
    ensures q.endYear == currentYear && q.endYear - q.startYear == 2
  {
    Request(seriesId, currentYear - 2, currentYear)
  }

  /** `fetch_series` after decoding: an answer whose status is not
      `REQUEST_SUCCEEDED` is an error carrying the API's message and never
      yields data; a successful answer without a data list is an error too. */
  function FetchSeries(seriesId: string, payload: Payload): (r: Result<seq<Item>, CollectError>)
    ensures r.Success? <==> payload.status == Some(RequestSucceeded) && payload.data.Some?
    ensures r.Success? ==> r.value == payload.data.value
    ensures payload.status != Some(RequestSucceeded) ==> r == Failure(ApiError(seriesId, payload.message))
  {
    if payload.status != Some(RequestSucceeded) then Failure(ApiError(seriesId, payload.message))
    else
      match payload.data
      case None => Failure(MissingSeriesData(seriesId))
      case Some(items) => Success(items)
  }

  /** A record as `collect_data` appends it, before pandas parses `date`. */
  datatype RawRecord = RawRecord(
    seriesName: string,
    seriesId: string,
    date: string,
    value: real,
    period: string,
    periodName: string,
    year: int)

  /** What the per-item loop does with one item. */
  datatype ItemOutcome = Skip | Keep(record: RawRecord) | Abort(error: CollectError)

  /** `period.startswith("M")`. */
  predicate IsMonthCode(period: string) {
    |period| > 0 && period[0] == 'M'
  }

  /** `float(item.get("value"))` succeeds. */
  predicate ValueParses(item: Item) {
    item.value.Some? && ParseFloat(item.value.value).Some?
  }

  /** A record's date text, once pandas parses it, is the first day of month
      `int(period[1:])` of year `year`. */
  predicate DateAgrees(rec: RawRecord) {
    match ParseIsoDate(rec.date)
    case None => true
    case Some(d) => d.year == rec.year && IsMonthCode(rec.period) && ParseInt(rec.period[1..]) == Some(d.month)
  }

  /** A date text built from a year text `int` accepts, once parsed, has
      that year and the month it was built from. */
  lemma DateTextAgrees(yearText: string, month: int, y: int)
    requires ParseInt(yearText) == Some(y)
    ensures match ParseIsoDate(DateText(yearText, month))
            case None => true
            case Some(d) => d.year == y && d.month == month
  {
    DateTextRoundTrip(yearText, month);
  }

  /** The body of the `for item in raw_data` loop for one catalog entry. */
  function NormalizeItem(entry: CatalogEntry, item: Item): (o: ItemOutcome)
    ensures var period := item.period.GetOr("");
            !IsMonthCode(period) || period == "M13" ==> o == Skip
    ensures var period := item.period.GetOr("");
            IsMonthCode(period) && period != "M13" ==>
              (ParseInt(period[1..]).None? ==> o == Abort(BadPeriodNumber(period)))
              && (ParseInt(period[1..]).Some? && !ValueParses(item) ==> o == Skip)
              && ((ParseInt(period[1..]).Some? && ValueParses(item) && ParseInt(item.year.GetOr("")).None?)
                    ==> o == Abort(BadYear(item.year.GetOr(""))))
              && ((ParseInt(period[1..]).Some? && ValueParses(item) && ParseInt(item.year.GetOr("")).Some?)
                    ==> o.Keep?)
    ensures o.Keep? ==>
              && o.record.seriesName == entry.seriesName
              && o.record.seriesId == entry.seriesId
              && o.record.period == item.period.GetOr("")
              && o.record.periodName == item.periodName.GetOr("")
              && IsMonthCode(o.record.period) && o.record.period != "M13"
              && ValueParses(item) && ParseFloat(item.value.value) == Some(o.record.value)
              && ParseInt(item.year.GetOr("")) == Some(o.record.year)
              && ParseInt(o.record.period[1..]).Some?
              && o.record.date == DateText(item.year.GetOr(""), ParseInt(o.record.period[1..]).value)
  {
    var period := item.period.GetOr("");
    var yearText := item.year.GetOr("");
    if !IsMonthCode(period) || period == "M13" then Skip
    else
      match ParseInt(period[1..])
      case None => Abort(BadPeriodNumber(period))
      case Some(month) =>
        if !ValueParses(item) then Skip
        else
          match ParseInt(yearText)
          case None => Abort(BadYear(yearText))
          case Some(y) =>
            var rec := RawRecord(entry.seriesName, entry.seriesId, DateText(yearText, month),
                                 ParseFloat(item.value.value).value, period, item.periodName.GetOr(""), y);
            Keep(rec)
  }

  /** A kept record's date text, once parsed, has the record's year and
      month `int(period[1:])`. */
  lemma NormalizeItemDateAgrees(entry: CatalogEntry, item: Item)
    ensures NormalizeItem(entry, item).Keep? ==> DateAgrees(NormalizeItem(entry, item).record)
  {
    var o := NormalizeItem(entry, item);
    if o.Keep? {
      var month := ParseInt(o.record.period[1..]).value;
      DateTextAgrees(item.year.GetOr(""), month, o.record.year);
    }
  }

  /** The whole `for item in raw_data` loop for one series: the records of
      the kept items, or the first error an item raises. A skipped item does
      not stop the loop. */
  function NormalizeItems(entry: CatalogEntry, items: seq<Item>): (r: Result<seq<RawRecord>, CollectError>)
    ensures r.Success? <==> forall k :: 0 <= k < |items| ==> !NormalizeItem(entry, items[k]).Abort?
    ensures r.Success? ==>
              forall rec :: rec in r.value <==> exists k :: 0 <= k < |items| && NormalizeItem(entry, items[k]) == Keep(rec)
  {
    if items == [] then Success([])
    else
      var rest := NormalizeItems(entry, items[1..]);
      ItemsTail(entry, items);
      match NormalizeItem(entry, items[0])
      case Abort(e) => Failure(e)
      case Skip => rest
      case Keep(rec) => if rest.Failure? then rest else Success([rec] + rest.value)
  }

  /** The per-item facts about a list are those about its head and its
      tail. */
  lemma ItemsTail(entry: CatalogEntry, items: seq<Item>)
    requires items != []
    ensures (forall k :: 0 <= k < |items| ==> !NormalizeItem(entry, items[k]).Abort?)
              <==> !NormalizeItem(entry, items[0]).Abort?
                   && forall k :: 0 <= k < |items[1..]| ==> !NormalizeItem(entry, items[1..][k]).Abort?
    ensures forall rec ::
              (exists k :: 0 <= k < |items| && NormalizeItem(entry, items[k]) == Keep(rec))
              <==> NormalizeItem(entry, items[0]) == Keep(rec)
                   || exists k :: 0 <= k < |items[1..]| && NormalizeItem(entry, items[1..][k]) == Keep(rec)
  {
    assert forall k :: 0 <= k < |items[1..]| ==> items[1..][k] == items[k + 1];
  }

  /** A failed loop reports the error of the first item that aborts. */
  lemma {:induction false} NormalizeItemsFirstAbort(entry: CatalogEntry, items: seq<Item>)
    ensures NormalizeItems(entry, items).Failure? ==>
              exists k :: 0 <= k < |items| && NormalizeItem(entry, items[k]) == Abort(NormalizeItems(entry, items).error)
                          && forall j :: 0 <= j < k ==> !NormalizeItem(entry, items[j]).Abort?
  {
    if NormalizeItems(entry, items).Failure? && !NormalizeItem(entry, items[0]).Abort? {
      var e := NormalizeItems(entry, items).error;
      NormalizeItemsFirstAbort(entry, items[1..]);
      var k :| 0 <= k < |items[1..]| && NormalizeItem(entry, items[1..][k]) == Abort(e)
               && forall j :: 0 <= j < k ==> !NormalizeItem(entry, items[1..][j]).Abort?;
      assert NormalizeItem(entry, items[k + 1]) == Abort(e);
      assert forall j :: 1 <= j < k + 1 ==> items[j] == items[1..][j - 1];
    }
  }

  /** The loop yields no record and no error exactly when every item is
      skipped. */
  lemma {:induction false} NormalizeItemsNothing(entry: CatalogEntry, items: seq<Item>)
    ensures NormalizeItems(entry, items) == Success([]) <==> forall k :: 0 <= k < |items| ==> NormalizeItem(entry, items[k]) == Skip
  {
    if items != [] {
      NormalizeItemsNothing(entry, items[1..]);
      assert forall k :: 1 <= k < |items| ==> items[1..][k - 1] == items[k];
    }
  }

  /** The mask "this item is kept". */
  function Kept(entry: CatalogEntry): Item -> bool {
    (item: Item) => NormalizeItem(entry, item).Keep?
  }

  /** A successful loop appends one record per kept item, in item order. */
  lemma {:induction false} NormalizeItemsPerItem(entry: CatalogEntry, items: seq<Item>)
    ensures var r := NormalizeItems(entry, items);
            var kept := Filter(items, Kept(entry));
            r.Success? ==>
              |r.value| == |kept| && forall k :: 0 <= k < |kept| ==> Keep(r.value[k]) == NormalizeItem(entry, kept[k])
  {
    var r := NormalizeItems(entry, items);
    if items != [] && r.Success? {
      var t := items[1..];
      var rest := NormalizeItems(entry, t);
      NormalizeItemsPerItem(entry, t);
      FilterCons(items[0], t, Kept(entry));
      assert items == [items[0]] + t;
      var o := NormalizeItem(entry, items[0]);
      var kept := Filter(items, Kept(entry));
      if o.Keep? {
        assert kept == [items[0]] + Filter(t, Kept(entry));
        assert r.value == [o.record] + rest.value;
        forall k | 1 <= k < |kept|
          ensures Keep(r.value[k]) == NormalizeItem(entry, kept[k])
        {
          ConsIndex(kept, items[0], Filter(t, Kept(entry)), k);
          ConsIndex(r.value, o.record, rest.value, k);
        }
      } else {
        assert kept == Filter(t, Kept(entry));
        assert r == rest;
      }
    }
  }

  /** The answer to `entry`'s request parses and every item in it is skipped. */
  predicate YieldsNothing(entry: CatalogEntry, currentYear: int, api: Request -> Payload) {
    var answer := FetchSeries(entry.seriesId, api(RequestFor(entry.seriesId, currentYear)));
    answer.Success? && forall k :: 0 <= k < |answer.value| ==> NormalizeItem(entry, answer.value[k]) == Skip
  }

  /** The facts every collected record carries. */
  predicate RecordFacts(rec: RawRecord, entries: seq<CatalogEntry>) {
    && CatalogEntry(rec.seriesName, rec.seriesId) in entries
    && IsMonthCode(rec.period) && rec.period != "M13"
    && DateAgrees(rec)
  }

  /** The requests sent and the records gathered by the outer loop. */
  datatype Fetched = Fetched(requests: seq<Request>, records: Result<seq<RawRecord>, CollectError>)

  /** The `for series_name, series_id in SERIES.items()` loop: one request
      per entry, in order, stopping at the first error. */
  function FetchAll(entries: seq<CatalogEntry>, currentYear: int, api: Request -> Payload): (f: Fetched)
    ensures |f.requests| <= |entries|
    ensures forall k :: 0 <= k < |f.requests| ==> f.requests[k] == RequestFor(entries[k].seriesId, currentYear)
    ensures f.records.Success? ==> |f.requests| == |entries|
  {
    if entries == [] then Fetched([], Success([]))
    else
      var q := RequestFor(entries[0].seriesId, currentYear);
      var first := FetchOne(entries[0], currentYear, api);
      if first.Failure? then Fetched([q], first)
      else
        var rest := FetchAll(entries[1..], currentYear, api);
        assert forall k :: 1 <= k < |entries| ==> entries[1..][k - 1] == entries[k];
        Fetched([q] + rest.requests, if rest.records.Failure? then rest.records else Success(first.value + rest.records.value))
  }

  /** The decoded answer to `entry`'s request. */
  function Answer(entry: CatalogEntry, currentYear: int, api: Request -> Payload): Result<seq<Item>, CollectError> {
    FetchSeries(entry.seriesId, api(RequestFor(entry.seriesId, currentYear)))
  }

  /** One pass of the outer loop: fetch the entry's series, then run the
      item loop over its data. */
  function FetchOne(entry: CatalogEntry, currentYear: int, api: Request -> Payload): Result<seq<RawRecord>, CollectError> {
    match Answer(entry, currentYear, api)
    case Failure(e) => Failure(e)
    case Success(items) => NormalizeItems(entry, items)
  }

  /** A pass succeeds exactly when the answer parses and none of its items
      raises; an answer that does not report success is an API error for
      this entry; and every record of a successful pass carries this
      entry's names and a month code other than `M13`. */
  lemma FetchOnePass(entry: CatalogEntry, currentYear: int, api: Request -> Payload)
    ensures var r := FetchOne(entry, currentYear, api);
            r.Success? <==>
              && Answer(entry, currentYear, api).Success?
              && forall k :: 0 <= k < |Answer(entry, currentYear, api).value| ==>
                   !NormalizeItem(entry, Answer(entry, currentYear, api).value[k]).Abort?
    ensures var payload := api(RequestFor(entry.seriesId, currentYear));
            payload.status != Some(RequestSucceeded) ==>
              FetchOne(entry, currentYear, api) == Failure(ApiError(entry.seriesId, payload.message))
    ensures var r := FetchOne(entry, currentYear, api);
            r.Success? ==>
              forall rec :: rec in r.value ==>
                && rec.seriesName == entry.seriesName && rec.seriesId == entry.seriesId
                && IsMonthCode(rec.period) && rec.period != "M13"
  {
  }

  /** The loop stops at the first failing pass: its last request is the one
      whose pass failed, with that pass's error, and every earlier pass
      succeeded. */
  lemma {:induction false} FetchAllStopsAtFirstError(entries: seq<CatalogEntry>, currentYear: int, api: Request -> Payload)
    ensures var f := FetchAll(entries, currentYear, api);
            f.records.Failure? ==>
              && 1 <= |f.requests|
              && f.records == FetchOne(entries[|f.requests| - 1], currentYear, api)
              && forall k :: 0 <= k < |f.requests| - 1 ==> FetchOne(entries[k], currentYear, api).Success?
  {
    var f := FetchAll(entries, currentYear, api);
    if entries != [] && f.records.Failure? && FetchOne(entries[0], currentYear, api).Success? {
      var rest := FetchAll(entries[1..], currentYear, api);
      FetchAllStopsAtFirstError(entries[1..], currentYear, api);
      assert |f.requests| == |rest.requests| + 1;
      assert entries[|f.requests| - 1] == entries[1..][|rest.requests| - 1];
      forall k | 1 <= k < |f.requests| - 1
        ensures FetchOne(entries[k], currentYear, api).Success?
      {
        assert entries[k] == entries[1..][k - 1];
      }
    }
  }

  /** A completed loop completed every pass, and the records it gathers
      are exactly those of the passes over the catalog entries. */
  lemma {:induction false} FetchAllRecordsFrom(entries: seq<CatalogEntry>, currentYear: int, api: Request -> Payload)
    ensures var f := FetchAll(entries, currentYear, api);
            f.records.Success? ==>
              forall k :: 0 <= k < |entries| ==> FetchOne(entries[k], currentYear, api).Success?
    ensures var f := FetchAll(entries, currentYear, api);
            f.records.Success? ==>
              forall rec :: rec in f.records.value <==>
                exists k :: 0 <= k < |entries| && FetchOne(entries[k], currentYear, api).Success?
                            && rec in FetchOne(entries[k], currentYear, api).value
  {
    var f := FetchAll(entries, currentYear, api);
    if entries != [] && f.records.Success? {
      var first := FetchOne(entries[0], currentYear, api);
      var rest := FetchAll(entries[1..], currentYear, api);
      FetchAllRecordsFrom(entries[1..], currentYear, api);
      assert f.records.value == first.value + rest.records.value;
      forall rec | rec in rest.records.value
        ensures exists k :: 0 <= k < |entries| && FetchOne(entries[k], currentYear, api).Success?
                            && rec in FetchOne(entries[k], currentYear, api).value
      {
        var k :| 0 <= k < |entries[1..]| && FetchOne(entries[1..][k], currentYear, api).Success?
                 && rec in FetchOne(entries[1..][k], currentYear, api).value;
        assert entries[1..][k] == entries[k + 1];
      }
      forall k | 1 <= k < |entries|
        ensures FetchOne(entries[k], currentYear, api).Success?
      {
        assert entries[k] == entries[1..][k - 1];
      }
      forall rec, k | 0 <= k < |entries| && FetchOne(entries[k], currentYear, api).Success?
                      && rec in FetchOne(entries[k], currentYear, api).value
        ensures rec in f.records.value
      {
        if k > 0 {
          assert entries[k] == entries[1..][k - 1];
        }
      }
    }
  }

  /** The records of the passes over `entries`, concatenated in entry
      order; a failed pass contributes none. */
  function Gathered(entries: seq<CatalogEntry>, currentYear: int, api: Request -> Payload): seq<RawRecord> {
    if entries == [] then []
    else
      var first := FetchOne(entries[0], currentYear, api);
      (if first.Success? then first.value else []) + Gathered(entries[1..], currentYear, api)
  }

  /** A completed loop appends every record of every pass, in catalog
      order, repeated records included (`records.append`, collect.py). */
  lemma {:induction false} FetchAllGathers(entries: seq<CatalogEntry>, currentYear: int, api: Request -> Payload)
    ensures var f := FetchAll(entries, currentYear, api);
            f.records.Success? ==> f.records.value == Gathered(entries, currentYear, api)
  {
    if entries != [] {
      FetchAllGathers(entries[1..], currentYear, api);
    }
  }

  /** A run that gets past the loop fetched every series successfully. */
  lemma {:induction false} FetchAllFetchedEverySeries(entries: seq<CatalogEntry>, currentYear: int, api: Request -> Payload)
    ensures FetchAll(entries, currentYear, api).records.Success? ==>
              forall k :: 0 <= k < |entries| ==>
                FetchSeries(entries[k].seriesId, api(RequestFor(entries[k].seriesId, currentYear))).Success?
  {
    if entries != [] && FetchAll(entries, currentYear, api).records.Success? {
      FetchAllFetchedEverySeries(entries[1..], currentYear, api);
      assert forall k :: 1 <= k < |entries| ==> entries[1..][k - 1] == entries[k];
    }
  }

  /** Every gathered record comes from a catalog entry, has a month code
      other than `M13`, and its date text agrees with its year and period. */
  lemma {:induction false} FetchAllRecordFacts(entries: seq<CatalogEntry>, currentYear: int, api: Request -> Payload)
    ensures FetchAll(entries, currentYear, api).records.Success? ==>
              forall rec :: rec in FetchAll(entries, currentYear, api).records.value ==> RecordFacts(rec, entries)
  {
    if entries != [] && FetchAll(entries, currentYear, api).records.Success? {
      var entry := entries[0];
      var items := FetchSeries(entry.seriesId, api(RequestFor(entry.seriesId, currentYear))).value;
      var recs := NormalizeItems(entry, items).value;
      var rest := FetchAll(entries[1..], currentYear, api);
      FetchAllRecordFacts(entries[1..], currentYear, api);
      forall rec | rec in FetchAll(entries, currentYear, api).records.value
        ensures RecordFacts(rec, entries)
      {
        if rec in recs {
          var k :| 0 <= k < |items| && NormalizeItem(entry, items[k]) == Keep(rec);
          NormalizeItemDateAgrees(entry, items[k]);
        } else {
          assert rec in rest.records.value;
          assert RecordFacts(rec, entries[1..]);
        }
      }
    }
  }

  /** An API error stops the run, and it names a requested series whose
      answer did not report success. */
  lemma {:induction false} FetchAllApiError(entries: seq<CatalogEntry>, currentYear: int, api: Request -> Payload)
    ensures var f := FetchAll(entries, currentYear, api);
            f.records.Failure? && f.records.error.ApiError? ==>
              exists k :: 0 <= k < |f.requests| && f.requests[k].seriesId == f.records.error.seriesId
                          && api(f.requests[k]).status != Some(RequestSucceeded)
  {
    var f := FetchAll(entries, currentYear, api);
    if !(f.records.Failure? && f.records.error.ApiError?) {
      return;
    }
    var q := RequestFor(entries[0].seriesId, currentYear);
    var answer := FetchSeries(entries[0].seriesId, api(q));
    if answer.Failure? {
      assert f.requests[0] == q;
    } else {
      var items := answer.value;
      NormalizeItemsNeverApiError(entries[0], items);
      var rest := FetchAll(entries[1..], currentYear, api);
      FetchAllApiError(entries[1..], currentYear, api);
      var k :| 0 <= k < |rest.requests| && rest.requests[k].seriesId == rest.records.error.seriesId
               && api(rest.requests[k]).status != Some(RequestSucceeded);
      assert f.requests[k + 1] == rest.requests[k];
    }
  }

  /** Items only ever raise on a bad month number or a bad year. */
  lemma NormalizeItemsNeverApiError(entry: CatalogEntry, items: seq<Item>)
    ensures NormalizeItems(entry, items).Failure? ==>
              NormalizeItems(entry, items).error.BadPeriodNumber? || NormalizeItems(entry, items).error.BadYear?
  {
    var r := NormalizeItems(entry, items);
    if r.Failure? {
      NormalizeItemsFirstAbort(entry, items);
      var k :| 0 <= k < |items| && NormalizeItem(entry, items[k]) == Abort(r.error);
    }
  }

  /** The loop itself never reports that nothing was collected; that check
      comes after it. */
  lemma {:induction false} FetchAllNeverNoRecords(entries: seq<CatalogEntry>, currentYear: int, api: Request -> Payload)
    ensures FetchAll(entries, currentYear, api).records != Failure(NoRecords)
  {
    if entries != [] {
      var answer := FetchSeries(entries[0].seriesId, api(RequestFor(entries[0].seriesId, currentYear)));
      if answer.Success? {
        NormalizeItemsNeverApiError(entries[0], answer.value);
        FetchAllNeverNoRecords(entries[1..], currentYear, api);
      }
    }
  }

  /** The loop ends with no records at all exactly when every series'
      answer parses and every one of its items is skipped. */
  lemma {:induction false} FetchAllNothing(entries: seq<CatalogEntry>, currentYear: int, api: Request -> Payload)
    ensures (FetchAll(entries, currentYear, api).records == Success([]))
              <==> forall k :: 0 <= k < |entries| ==> YieldsNothing(entries[k], currentYear, api)
  {
    if entries != [] {
      FetchAllNothing(entries[1..], currentYear, api);
      assert forall k :: 1 <= k < |entries| ==> entries[1..][k - 1] == entries[k];
      var q := RequestFor(entries[0].seriesId, currentYear);
      var answer := FetchSeries(entries[0].seriesId, api(q));
      if answer.Success? {
        var r := NormalizeItems(entries[0], answer.value);
        NormalizeItemsNothing(entries[0], answer.value);
        if r.Success? {
          var rest := FetchAll(entries[1..], currentYear, api);
          if rest.records.Success? {
            assert |r.value + rest.records.value| == |r.value| + |rest.records.value|;
          }
        }
      }
    }
  }

  /** A parsed record as a table row. */
  function ToObservation(rec: RawRecord, d: Date): Observation {
    Observation(rec.seriesName, rec.seriesId, d, rec.value, rec.period, rec.periodName, rec.year)
  }

  /** `pd.to_datetime(df["date"], errors="coerce")` followed by
      `dropna(subset=["date", "value"])`: records whose date text is not a
      valid date are dropped, the others become rows. */
  function ParseDates(raws: seq<RawRecord>): (rows: seq<Observation>)
    ensures |rows| <= |raws|
    ensures forall o :: o in rows <==> exists rec :: rec in raws && ParseIsoDate(rec.date) == Some(o.date) && o == ToObservation(rec, o.date)
  {
    if raws == [] then []
    else
      var rest := ParseDates(raws[1..]);
      assert raws == [raws[0]] + raws[1..];
      match ParseIsoDate(raws[0].date)
      case None => rest
      case Some(d) => [ToObservation(raws[0], d)] + rest
  }

  /** The mask "this record's date text is a date". */
  const DateParses: RawRecord -> bool := (rec: RawRecord) => ParseIsoDate(rec.date).Some?

  /** `o` is the row record `rec` becomes: its date text parses to `o`'s
      date. */
  predicate RowOf(rec: RawRecord, o: Observation) {
    ParseIsoDate(rec.date) == Some(o.date) && o == ToObservation(rec, o.date)
  }

  /** `rows` holds one row per record of `recs`, position by position. */
  predicate RowsOf(recs: seq<RawRecord>, rows: seq<Observation>) {
    |rows| == |recs| && forall k :: 0 <= k < |recs| ==> RowOf(recs[k], rows[k])
  }

  lemma RowsOfCons(rec: RawRecord, o: Observation, recs: seq<RawRecord>, rows: seq<Observation>)
    requires RowOf(rec, o) && RowsOf(recs, rows)
    ensures RowsOf([rec] + recs, [o] + rows)
  {
    forall k | 1 <= k < |recs| + 1
      ensures RowOf(([rec] + recs)[k], ([o] + rows)[k])
    {
      ConsIndex([rec] + recs, rec, recs, k);
      ConsIndex([o] + rows, o, rows, k);
    }
  }

  /** Every record with a valid date becomes exactly one row, in record
      order; the others are dropped. */
  lemma {:induction false} ParseDatesPerRecord(raws: seq<RawRecord>)
    ensures RowsOf(Filter(raws, DateParses), ParseDates(raws))
  {
    if raws != [] {
      var t := raws[1..];
      ParseDatesPerRecord(t);
      FilterCons(raws[0], t, DateParses);
      assert raws == [raws[0]] + t;
      match ParseIsoDate(raws[0].date)
      case Some(d) =>
        assert Filter(raws, DateParses) == [raws[0]] + Filter(t, DateParses);
        assert ParseDates(raws) == [ToObservation(raws[0], d)] + ParseDates(t);
        RowsOfCons(raws[0], ToObservation(raws[0], d), Filter(t, DateParses), ParseDates(t));
      case None =>
        assert Filter(raws, DateParses) == Filter(t, DateParses);
        assert ParseDates(raws) == ParseDates(t);
    }
  }

  /** The cleaning step: parse dates, drop invalid rows, sort by
      `(series_name, date)`. */
  function Clean(raws: seq<RawRecord>): (table: seq<Observation>)
    ensures SortedBy(table, BySeriesName)
    ensures multiset(table) == multiset(ParseDates(raws))
    ensures |table| <= |raws|
    ensures forall o :: o in table <==> exists rec :: rec in raws && ParseIsoDate(rec.date) == Some(o.date) && o == ToObservation(rec, o.date)
  {
    var rows := ParseDates(raws);
    var table := SortBy(rows, BySeriesName);
    assert forall o :: o in table <==> o in rows by {
      forall o
        ensures o in table <==> o in rows
      {
        assert o in table <==> o in multiset(table);
        assert o in rows <==> o in multiset(rows);
      }
    }
    assert |table| == |multiset(table)| == |multiset(rows)| == |rows|;
    table
  }

  /** What one run of `collect_data` sent, and the table it writes or the
      error that stopped it (in which case nothing is written). */
  datatype Collection = Collection(requests: seq<Request>, table: Result<seq<Observation>, CollectError>)

  /** What every row of a collected table satisfies: it belongs to a catalog
      series, it came from a month code other than `M13`, its date is the
      first day of month `int(period[1:])`, and its `year` column is the
      year of its date. */
  predicate CollectedRow(o: Observation) {
    && CatalogEntry(o.seriesName, o.seriesId) in Catalog
    && IsMonthCode(o.period) && o.period != "M13"
    && ParseInt(o.period[1..]) == Some(o.date.month)
    && o.year == o.date.year
  }

  /** `collect_data` with the clock and the network as parameters: one
      request per catalog series, each for the current year and the two
      before; the run fails at the first failing series, or when nothing at
      all was collected; otherwise the table is the cleaned records sorted
      by `(series_name, date)`. */
  function CollectData(currentYear: int, api: Request -> Payload): (c: Collection)
    ensures forall q :: q in c.requests ==> q.startYear == currentYear - 2 && q.endYear == currentYear
    ensures |c.requests| <= |Catalog|
    ensures forall k :: 0 <= k < |c.requests| ==> c.requests[k].seriesId == Catalog[k].seriesId
    ensures c.table.Success? ==> |c.requests| == |Catalog|
    ensures c.table.Success? ==> SortedBy(c.table.value, BySeriesName)
  {
    var f := FetchAll(Catalog, currentYear, api);
    var table: Result<seq<Observation>, CollectError> :=
      if f.records.Failure? then Failure(f.records.error)
      else if f.records.value == [] then Failure(NoRecords)
      else Success(Clean(f.records.value));
    Collection(f.requests, table)
  }

  /** The run fails with "no records" exactly when every series answers and
      every item of every answer is skipped. */
  lemma CollectDataNoRecords(currentYear: int, api: Request -> Payload)
    ensures (CollectData(currentYear, api).table == Failure(NoRecords))
              <==> forall k :: 0 <= k < |Catalog| ==> YieldsNothing(Catalog[k], currentYear, api)
  {
    FetchAllNothing(Catalog, currentYear, api);
    FetchAllNeverNoRecords(Catalog, currentYear, api);
  }

  /** Every row of a collected table belongs to a catalog series, came from
      a month code other than `M13`, is dated the first day of month
      `int(period[1:])`, and has the year of its date in its `year` column. */
  lemma CollectedRows(currentYear: int, api: Request -> Payload)
    ensures CollectData(currentYear, api).table.Success? ==>
              forall o :: o in CollectData(currentYear, api).table.value ==> CollectedRow(o)
  {
    if CollectData(currentYear, api).table.Failure? {
      return;
    }
    var raws := FetchAll(Catalog, currentYear, api).records.value;
    FetchAllRecordFacts(Catalog, currentYear, api);
    forall o | o in CollectData(currentYear, api).table.value
      ensures CollectedRow(o)
    {
      var rec :| rec in raws && ParseIsoDate(rec.date) == Some(o.date) && o == ToObservation(rec, o.date);
      assert RecordFacts(rec, Catalog);
    }
  }

  /** `o` is the row the item loop and the date parsing make of `item`:
      the item is kept and its date text parses to `o`'s date. */
  predicate KeptRow(entry: CatalogEntry, item: Item, o: Observation) {
    var out := NormalizeItem(entry, item);
    out.Keep? && ParseIsoDate(out.record.date) == Some(o.date) && o == ToObservation(out.record, o.date)
  }

  /** A collected table holds exactly the rows made from the kept items of
      the catalog series' answers whose date texts parse: no such item is
      lost, and nothing else gets in. */
  lemma CollectedTableIsKeptRows(currentYear: int, api: Request -> Payload)
    ensures var c := CollectData(currentYear, api);
            c.table.Success? ==>
              forall o :: o in c.table.value <==>
                exists k, i :: 0 <= k < |Catalog| && Answer(Catalog[k], currentYear, api).Success?
                               && 0 <= i < |Answer(Catalog[k], currentYear, api).value|
                               && KeptRow(Catalog[k], Answer(Catalog[k], currentYear, api).value[i], o)
  {
    var c := CollectData(currentYear, api);
    if c.table.Success? {
      var f := FetchAll(Catalog, currentYear, api);
      assert f.records.Success? && c.table.value == Clean(f.records.value);
      KeptRowsFromRecords(Catalog, currentYear, api);
    }
  }

  /** A collected table holds the rows of the passes' records with a valid
      date, each as many times as it was gathered: duplicates are kept. */
  lemma CollectedTableCounts(currentYear: int, api: Request -> Payload)
    ensures var c := CollectData(currentYear, api);
            c.table.Success? ==> multiset(c.table.value) == multiset(ParseDates(Gathered(Catalog, currentYear, api)))
  {
    FetchAllGathers(Catalog, currentYear, api);
  }

  /** The same statement for the loop's records before cleaning: the rows
      the cleaning step makes of them are exactly the kept rows. */
  lemma KeptRowsFromRecords(entries: seq<CatalogEntry>, currentYear: int, api: Request -> Payload)
    ensures var f := FetchAll(entries, currentYear, api);
            f.records.Success? ==>
              forall o :: o in Clean(f.records.value) <==>
                exists k, i :: 0 <= k < |entries| && Answer(entries[k], currentYear, api).Success?
                               && 0 <= i < |Answer(entries[k], currentYear, api).value|
                               && KeptRow(entries[k], Answer(entries[k], currentYear, api).value[i], o)
  {
    var f := FetchAll(entries, currentYear, api);
    if f.records.Failure? {
      return;
    }
    var raws := f.records.value;
    forall o | o in Clean(raws)
      ensures exists k, i :: 0 <= k < |entries| && Answer(entries[k], currentYear, api).Success?
                             && 0 <= i < |Answer(entries[k], currentYear, api).value|
                             && KeptRow(entries[k], Answer(entries[k], currentYear, api).value[i], o)
    {
      var k, i := CleanRowIsKept(entries, currentYear, api, o);
    }
    forall o, k, i | 0 <= k < |entries| && Answer(entries[k], currentYear, api).Success?
                     && 0 <= i < |Answer(entries[k], currentYear, api).value|
                     && KeptRow(entries[k], Answer(entries[k], currentYear, api).value[i], o)
      ensures o in Clean(raws)
    {
      KeptItemIsGathered(entries, currentYear, api, k, i);
      var rec := NormalizeItem(entries[k], Answer(entries[k], currentYear, api).value[i]).record;
      CleanKeepsRow(raws, rec, o);
    }
  }

  /** A row of the cleaned table comes from a kept item of some pass. */
  lemma CleanRowIsKept(entries: seq<CatalogEntry>, currentYear: int, api: Request -> Payload, o: Observation)
      returns (k: int, i: int)
    requires FetchAll(entries, currentYear, api).records.Success?
    requires o in Clean(FetchAll(entries, currentYear, api).records.value)
    ensures 0 <= k < |entries| && Answer(entries[k], currentYear, api).Success?
    ensures 0 <= i < |Answer(entries[k], currentYear, api).value|
    ensures KeptRow(entries[k], Answer(entries[k], currentYear, api).value[i], o)
  {
    var raws := FetchAll(entries, currentYear, api).records.value;
    FetchAllRecordsFrom(entries, currentYear, api);
    var rec :| rec in raws && ParseIsoDate(rec.date) == Some(o.date) && o == ToObservation(rec, o.date);
    k :| 0 <= k < |entries| && FetchOne(entries[k], currentYear, api).Success?
         && rec in FetchOne(entries[k], currentYear, api).value;
    var items := Answer(entries[k], currentYear, api).value;
    i :| 0 <= i < |items| && NormalizeItem(entries[k], items[i]) == Keep(rec);
  }

  /** A record with a valid date yields its row in the cleaned table. */
  lemma CleanKeepsRow(raws: seq<RawRecord>, rec: RawRecord, o: Observation)
    requires rec in raws && ParseIsoDate(rec.date) == Some(o.date) && o == ToObservation(rec, o.date)
    ensures o in Clean(raws)
  {
  }

  /** The record of a kept item of a completed loop is among its records. */
  lemma KeptItemIsGathered(entries: seq<CatalogEntry>, currentYear: int, api: Request -> Payload, k: int, i: int)
    requires FetchAll(entries, currentYear, api).records.Success?
    requires 0 <= k < |entries| && Answer(entries[k], currentYear, api).Success?
    requires 0 <= i < |Answer(entries[k], currentYear, api).value|
    requires NormalizeItem(entries[k], Answer(entries[k], currentYear, api).value[i]).Keep?
    ensures NormalizeItem(entries[k], Answer(entries[k], currentYear, api).value[i]).record
              in FetchAll(entries, currentYear, api).records.value
  {
    FetchAllRecordsFrom(entries, currentYear, api);
    assert FetchOne(entries[k], currentYear, api).Success?;
  }

  /** A series whose answer does not report success makes the whole run
      fail, so nothing is written; and an API error always names a requested
      series whose answer did not report success. */
  lemma CollectFailsOnApiError(currentYear: int, api: Request -> Payload)
    ensures (exists k :: 0 <= k < |Catalog| && api(RequestFor(Catalog[k].seriesId, currentYear)).status != Some(RequestSucceeded))
              ==> CollectData(currentYear, api).table.Failure?
    ensures var c := CollectData(currentYear, api);
            c.table.Failure? && c.table.error.ApiError? ==>
              exists q :: q in c.requests && q.seriesId == c.table.error.seriesId && api(q).status != Some(RequestSucceeded)
  {
    var f := FetchAll(Catalog, currentYear, api);
    if f.records.Success? {
      FetchAllFetchedEverySeries(Catalog, currentYear, api);
    } else if f.records.error.ApiError? {
      FetchAllApiError(Catalog, currentYear, api);
      var k :| 0 <= k < |f.requests| && f.requests[k].seriesId == f.records.error.seriesId
               && api(f.requests[k]).status != Some(RequestSucceeded);
      assert f.requests[k] in CollectData(currentYear, api).requests;
    }
  }
}

=== FILE: dashboard.dfy ===
/** The dashboard's data logic (`app.py`): loading and cleaning the stored
    table, the unit and year-over-year columns computed on the full table,
    the time-window and series filters, the rows a chart plots and the
    latest-month summary. Streamlit widgets are replaced by parameters: the
    chosen window, the selected series and the view mode. */
module Dashboard {
  import opened Wrappers
  import opened Dates
  import opened Observations
  import Collect

  /** A stored row as `load_data` sees it: the `date` cell is `None` when
      it is missing (an empty cell, which `parse_dates` reads as NaT); the
      `value` cell is `None` when it is missing or not numeric
      (`to_numeric(errors="coerce")`). */
  datatype StoredRow = StoredRow(
    seriesName: string,
    seriesId: string,
    date: Option<Date>,
    value: Option<real>,
    period: string,
    periodName: string,
    year: int)

  /** The row a stored row becomes when both its date and value are present. */
  function Complete(row: StoredRow): Option<Observation> {
    if row.date.Some? && row.value.Some? then
      Some(Observation(row.seriesName, row.seriesId, row.date.value, row.value.value, row.period, row.periodName, row.year))
    else None
  }

  /** The two `dropna` calls: rows missing a date or a numeric value go. */
  function DropIncomplete(rows: seq<StoredRow>): (r: seq<Observation>)
    ensures |r| <= |rows|
    ensures forall o :: o in r <==> exists row :: row in rows && Complete(row) == Some(o)
  {
    if rows == [] then []
    else
      var rest := DropIncomplete(rows[1..]);
      assert rows == [rows[0]] + rows[1..];
      match Complete(rows[0])
      case None => rest
      case Some(o) => [o] + rest
  }

  /** The mask "both the date and the value are present". */
  const IsComplete: StoredRow -> bool := (row: StoredRow) => Complete(row).Some?

  /** Every complete stored row becomes exactly one row, in file order. */
  lemma {:induction false} DropIncompletePerRow(rows: seq<StoredRow>)
    ensures var complete := Filter(rows, IsComplete);
            |DropIncomplete(rows)| == |complete|
            && forall k :: 0 <= k < |complete| ==> Some(DropIncomplete(rows)[k]) == Complete(complete[k])
  {
    if rows != [] {
      var t := rows[1..];
      DropIncompletePerRow(t);
      FilterCons(rows[0], t, IsComplete);
      assert rows == [rows[0]] + t;
      var complete, kept := Filter(rows, IsComplete), DropIncomplete(rows);
      var completeRest, keptRest := Filter(t, IsComplete), DropIncomplete(t);
      match Complete(rows[0])
      case Some(o) =>
        assert complete == [rows[0]] + completeRest;
        assert kept == [o] + keptRest;
        forall k | 1 <= k < |complete|
          ensures Some(kept[k]) == Complete(complete[k])
        {
          ConsIndex(complete, rows[0], completeRest, k);
          ConsIndex(kept, o, keptRest, k);
        }
      case None =>
        assert complete == completeRest;
        assert kept == keptRest;
    }
  }

  /** `load_data`: drop incomplete rows and sort by `(series_id, date)`.
      The result has no row without a date or value, holds every complete
      row, and is sorted. */
  function LoadData(rows: seq<StoredRow>): (table: seq<Observation>)
    ensures SortedBy(table, BySeriesId)
    ensures multiset(table) == multiset(DropIncomplete(rows))
    ensures forall o :: o in table <==> exists row :: row in rows && Complete(row) == Some(o)
  {
    var kept := DropIncomplete(rows);
    var table := SortBy(kept, BySeriesId);
    assert forall o :: o in table <==> o in kept by {
      forall o
        ensures o in table <==> o in kept
      {
        assert o in table <==> o in multiset(table);
        assert o in kept <==> o in multiset(kept);
      }
    }
    table
  }

  /** A table written out as CSV and read back: the date cell is the ISO
      text `to_csv` writes, parsed again by `parse_dates`; the value cell is
      present. */
  function Stored(table: seq<Observation>): (rows: seq<StoredRow>)
    ensures |rows| == |table|
    ensures forall k :: 0 <= k < |table| && 1000 <= table[k].date.year <= 9999 ==> Complete(rows[k]) == Some(table[k])
  {
    if table == [] then []
    else
      StoredCellReadsBack(table[0]);
      var rest := Stored(table[1..]);
      assert forall k :: 1 <= k < |table| ==> table[k] == table[1..][k - 1] && ([StoredCell(table[0])] + rest)[k] == rest[k - 1];
      [StoredCell(table[0])] + rest
  }

  /** A row with a four-digit year reads back as itself. */
  lemma StoredCellReadsBack(o: Observation)
    ensures 1000 <= o.date.year <= 9999 ==> Complete(StoredCell(o)) == Some(o)
  {
    if 1000 <= o.date.year <= 9999 {
      StoredCellComplete(o);
    }
  }

  /** One row of the written file read back. */
  function StoredCell(o: Observation): StoredRow {
    StoredRow(o.seriesName, o.seriesId, ParseIsoDate(IsoText(o.date)), Some(o.value), o.period, o.periodName, o.year)
  }

  lemma StoredCellComplete(o: Observation)
    requires 1000 <= o.date.year <= 9999
    ensures Complete(StoredCell(o)) == Some(o)
  {
    IsoTextRoundTrip(o.date);
  }

  /** Every date of the table has a four-digit year. */
  predicate FourDigitYears(table: seq<Observation>) {
    forall k :: 0 <= k < |table| ==> 1000 <= table[k].date.year <= 9999
  }

  /** The table the collector writes loads back without losing or adding a
      row, only re-sorted by `(series_id, date)`. */
  lemma StoreThenLoad(table: seq<Observation>)
    requires FourDigitYears(table)
    ensures multiset(LoadData(Stored(table))) == multiset(table)
    ensures SortedBy(LoadData(Stored(table)), BySeriesId)
  {
    DropStoredKeepsAll(table);
  }

  lemma {:induction false} DropStoredKeepsAll(table: seq<Observation>)
    requires FourDigitYears(table)
    ensures DropIncomplete(Stored(table)) == table
  {
    if table != [] {
      var t := table[1..];
      StoredCellComplete(table[0]);
      DropStoredKeepsAll(t);
      assert Stored(table) == [StoredCell(table[0])] + Stored(t);
      assert DropIncomplete(Stored(table)) == [table[0]] + DropIncomplete(Stored(t));
      assert table == [table[0]] + t;
    }
  }

  /** `UNIT_MAP`. */
  const UnitMap: map<string, string> := map[
    "Total Nonfarm Employment" := "Employment (thousands)",
    "Manufacturing Employment" := "Employment (thousands)",
    "Education and Health Services Employment" := "Employment (thousands)",
    "Average Hourly Earnings for Private Employees" := "Dollars",
    "Unemployment Rate" := "Percent",
    "Labor Force Participation Rate" := "Percent"
  ]

  const OtherUnit: string := "Other"

  /** `df["series_name"].map(UNIT_MAP).fillna("Other")` for one row: the
      mapped label for a known name, `Other` for any other name. */
  function UnitOf(seriesName: string): (u: string)
    ensures seriesName in UnitMap ==> u == UnitMap[seriesName]
    ensures seriesName !in UnitMap ==> u == OtherUnit
    ensures u in {"Employment (thousands)", "Dollars", "Percent", OtherUnit}
  {
    if seriesName in UnitMap then UnitMap[seriesName] else OtherUnit
  }

  /** Every series the collector fetches has a real unit label. */
  lemma CatalogSeriesHaveUnits()
    ensures forall e :: e in Collect.Catalog ==> UnitOf(e.seriesName) != OtherUnit
  {
    forall k | 0 <= k < |Collect.Catalog|
      ensures Collect.Catalog[k].seriesName in UnitMap
    {
    }
  }

  /** The values of the rows of series `id`, in table order. */
  function GroupValues(rows: seq<Observation>, id: string): (vs: seq<real>)
    ensures |vs| <= |rows|
  {
    if rows == [] then []
    else
      var last := rows[|rows| - 1];
      GroupValues(rows[..|rows| - 1], id) + (if last.seriesId == id then [last.value] else [])
  }

  /** `pct_change` times 100 for one pair of values; a zero base gives no
      number. */
  function PctChange(current: real, base: real): Option<real> {
    if base == 0.0 then None else Some((current / base - 1.0) * 100.0)
  }

  /** `df.groupby("series_id")["value"].pct_change(periods=12) * 100` at row
      `i`: within the rows of the same series before row `i`, the one twelve
      positions back is the base; a row with fewer than twelve predecessors
      in its series has none. */
  function YoyAt(rows: seq<Observation>, i: int): (r: Option<real>)
    requires 0 <= i < |rows|
    ensures i < 12 ==> r.None?
  {
    var prior := GroupValues(rows[..i], rows[i].seriesId);
    if |prior| < 12 then None else PctChange(rows[i].value, prior[|prior| - 12])
  }

  lemma GroupValuesStep(rows: seq<Observation>, i: int, id: string)
    requires 0 <= i < |rows|
    ensures GroupValues(rows[..i + 1], id)
              == GroupValues(rows[..i], id) + (if rows[i].seriesId == id then [rows[i].value] else [])
  {
    assert rows[..i + 1][..i] == rows[..i];
  }

  /** The values remembered for series `id`. */
  function History(seen: map<string, seq<real>>, id: string): seq<real> {
    if id in seen then seen[id] else []
  }

  /** Remembering row `i`'s value under its series keeps the map equal to
      the per-series values of the rows read so far. */
  lemma HistoryStep(rows: seq<Observation>, i: int, next: int,
                    seen: map<string, seq<real>>, seen': map<string, seq<real>>)
    requires 0 <= i < |rows| && next == i + 1
    requires forall id :: GroupValues(rows[..i], id) == History(seen, id)
    requires seen' == seen[rows[i].seriesId := History(seen, rows[i].seriesId) + [rows[i].value]]
    ensures forall id :: GroupValues(rows[..next], id) == History(seen', id)
  {
    forall id
      ensures GroupValues(rows[..next], id) == History(seen', id)
    {
      GroupValuesStep(rows, i, id);
    }
  }

  /** With the values of the rows before `i` remembered per series, row
      `i`'s year-over-year value needs only its own series' history. */
  lemma YoyFromHistory(rows: seq<Observation>, i: int, seen: map<string, seq<real>>)
    requires 0 <= i < |rows|
    requires forall id :: GroupValues(rows[..i], id) == History(seen, id)
    ensures var prior := History(seen, rows[i].seriesId);
            YoyAt(rows, i) == if |prior| < 12 then None else PctChange(rows[i].value, prior[|prior| - 12])
  {
    assert GroupValues(rows[..i], rows[i].seriesId) == History(seen, rows[i].seriesId);
  }

  /** The year-over-year values of the first `n` rows. */
  function YoyColumn(rows: seq<Observation>, n: nat): (col: seq<Option<real>>)
    requires n <= |rows|
    ensures |col| == n
  {
    if n == 0 then [] else YoyColumn(rows, n - 1) + [YoyAt(rows, n - 1)]
  }

  lemma {:induction false} YoyColumnAt(rows: seq<Observation>, n: nat)
    requires n <= |rows|
    ensures forall k :: 0 <= k < n ==> YoyColumn(rows, n)[k] == YoyAt(rows, k)
  {
    if n > 0 {
      YoyColumnAt(rows, n - 1);
    }
  }

  /** The year-over-year column in one pass, keeping for every series the
      values seen so far, as pandas' grouped shift does. */
  method ComputeYoy(rows: seq<Observation>) returns (yoy: seq<Option<real>>)
    ensures |yoy| == |rows|
    ensures forall i :: 0 <= i < |rows| ==> yoy[i] == YoyAt(rows, i)
  {
    var seen: map<string, seq<real>> := map[];
    yoy := [];
    var i := 0;
    while i < |rows|
      invariant 0 <= i <= |rows|
      invariant yoy == YoyColumn(rows, i)
      invariant forall id :: GroupValues(rows[..i], id) == History(seen, id)
    {
      var row := rows[i];
      var prior := History(seen, row.seriesId);
      var change := if |prior| < 12 then None else PctChange(row.value, prior[|prior| - 12]);
      YoyFromHistory(rows, i, seen);
      yoy := yoy + [change];
      var seen' := seen[row.seriesId := prior + [row.value]];
      HistoryStep(rows, i, i + 1, seen, seen');
      seen := seen';
      i := i + 1;
    }
    YoyColumnAt(rows, |rows|);
  }

  lemma {:induction false} GroupValuesAppend(a: seq<Observation>, b: seq<Observation>, id: string)
    ensures GroupValues(a + b, id) == GroupValues(a, id) + GroupValues(b, id)
    decreases |b|
  {
    if b == [] {
      assert a + b == a;
    } else {
      var b' := b[..|b| - 1];
      assert (a + b)[..|a + b| - 1] == a + b';
      GroupValuesAppend(a, b', id);
    }
  }

  lemma {:induction false} GroupValuesNone(b: seq<Observation>, id: string)
    requires forall l :: 0 <= l < |b| ==> b[l].seriesId != id
    ensures GroupValues(b, id) == []
    decreases |b|
  {
    if b != [] {
      GroupValuesNone(b[..|b| - 1], id);
    }
  }

  lemma {:induction false} GroupValuesAll(b: seq<Observation>, id: string)
    requires forall l :: 0 <= l < |b| ==> b[l].seriesId == id
    ensures |GroupValues(b, id)| == |b|
    ensures forall k :: 0 <= k < |b| ==> GroupValues(b, id)[k] == b[k].value
    decreases |b|
  {
    if b != [] {
      GroupValuesAll(b[..|b| - 1], id);
    }
  }

  /** On the loaded table, sorted by `(series_id, date)`, the lookback is
      positional: row `i` is compared with row `i - 12` when that row belongs
      to the same series, and has no year-over-year value otherwise,
      whatever the dates of the two rows are. */
  lemma YoyLooksTwelveRowsBack(rows: seq<Observation>, i: int)
    requires SortedBy(rows, BySeriesId)
    requires 0 <= i < |rows|
    ensures YoyAt(rows, i)
              == if i >= 12 && rows[i - 12].seriesId == rows[i].seriesId
                 then PctChange(rows[i].value, rows[i - 12].value) else None
  {
    if i >= 12 && rows[i - 12].seriesId == rows[i].seriesId {
      YoySameSeries(rows, i);
    } else if i >= 12 {
      YoyOtherSeries(rows, i);
    }
  }

  lemma YoySameSeries(rows: seq<Observation>, i: int)
    requires SortedBy(rows, BySeriesId)
    requires 12 <= i < |rows| && rows[i - 12].seriesId == rows[i].seriesId
    ensures YoyAt(rows, i) == PctChange(rows[i].value, rows[i - 12].value)
  {
    BlockInSeries(rows, i);
    YoyWithFullBlock(rows, i);
  }

  /** Between two rows of the same series in the sorted table, every row
      belongs to that series. */
  lemma BlockInSeries(rows: seq<Observation>, i: int)
    requires SortedBy(rows, BySeriesId)
    requires 12 <= i < |rows| && rows[i - 12].seriesId == rows[i].seriesId
    ensures forall l :: i - 12 <= l < i ==> rows[l].seriesId == rows[i].seriesId
  {
    forall l | i - 12 <= l < i
      ensures rows[l].seriesId == rows[i].seriesId
    {
      SortedGroupsContiguous(rows, BySeriesId, i - 12, l, i);
    }
  }

  /** When the twelve rows before row `i` all belong to its series, the
      first of them is the base. */
  lemma YoyWithFullBlock(rows: seq<Observation>, i: int)
    requires 12 <= i < |rows|
    requires forall l :: i - 12 <= l < i ==> rows[l].seriesId == rows[i].seriesId
    ensures YoyAt(rows, i) == PctChange(rows[i].value, rows[i - 12].value)
  {
    var id := rows[i].seriesId;
    var head, block := rows[..i - 12], rows[i - 12..i];
    forall l | 0 <= l < |block|
      ensures block[l].seriesId == id
    {
      assert block[l] == rows[i - 12 + l];
    }
    assert rows[..i] == head + block;
    GroupValuesAppend(head, block, id);
    GroupValuesAll(block, id);
    var tail := GroupValues(block, id);
    var prior := GroupValues(head, id) + tail;
    assert |tail| == 12 && tail[0] == rows[i - 12].value;
    assert prior[|prior| - 12] == tail[0];
  }

  lemma YoyOtherSeries(rows: seq<Observation>, i: int)
    requires SortedBy(rows, BySeriesId)
    requires 12 <= i < |rows| && rows[i - 12].seriesId != rows[i].seriesId
    ensures YoyAt(rows, i) == None
  {
    var id := rows[i].seriesId;
    forall l | 0 <= l < i - 11
      ensures rows[l].seriesId != id
    {
      if rows[l].seriesId == id {
        SortedGroupsContiguous(rows, BySeriesId, l, i - 12, i);
      }
    }
    var head, block := rows[..i - 11], rows[i - 11..i];
    assert rows[..i] == head + block;
    GroupValuesAppend(head, block, id);
    GroupValuesNone(head, id);
  }

  /** When a series has a row for every month, the positional lookback is
      exactly twelve calendar months: the base row is the same month one
      year earlier. */
  lemma YoyIsCalendarYearWithoutGaps(rows: seq<Observation>, i: int)
    requires SortedBy(rows, BySeriesId)
    requires 12 <= i < |rows|
    requires rows[i - 12].seriesId == rows[i].seriesId
    requires forall l :: i - 12 <= l < i ==> MonthIndex(rows[l + 1].date) == MonthIndex(rows[l].date) + 1
    ensures rows[i - 12].date == TwelveMonthsBefore(rows[i].date)
    ensures YoyAt(rows, i) == PctChange(rows[i].value, rows[i - 12].value)
  {
    YoyLooksTwelveRowsBack(rows, i);
    ConsecutiveMonths(rows, i - 12, i);
    MonthIndexInjective(rows[i - 12].date, TwelveMonthsBefore(rows[i].date));
  }

  lemma {:induction false} ConsecutiveMonths(rows: seq<Observation>, a: int, b: int)
    requires 0 <= a <= b < |rows|
    requires forall l :: a <= l < b ==> MonthIndex(rows[l + 1].date) == MonthIndex(rows[l].date) + 1
    ensures MonthIndex(rows[b].date) == MonthIndex(rows[a].date) + (b - a)
    decreases b - a
  {
    if a < b {
      ConsecutiveMonths(rows, a, b - 1);
    }
  }

  /** A loaded row with the columns the dashboard adds: `unit`, `yoy_pct`. */
  datatype Row = Row(obs: Observation, unit: string, yoy: Option<real>)

  /** `app.py` lines 49 and 52: both columns computed on the full loaded table. */
  function DeriveColumns(table: seq<Observation>): (rows: seq<Row>)
    ensures |rows| == |table|
    ensures forall i :: 0 <= i < |table| ==> rows[i].obs == table[i]
  {
    seq(|table|, i requires 0 <= i < |table| => Row(table[i], UnitOf(table[i].seriesName), YoyAt(table, i)))
  }

  /** `df["date"].max()`: `None` (NaT) for no rows, otherwise a date some row
      has and no row exceeds. */
  function LatestDate(rows: seq<Row>): (d: Option<Date>)
    ensures d.None? <==> rows == []
    ensures d.Some? ==> exists k :: 0 <= k < |rows| && rows[k].obs.date == d.value
    ensures d.Some? ==> forall k :: 0 <= k < |rows| ==> DateLe(rows[k].obs.date, d.value)
  {
    if rows == [] then None
    else
      match LatestDate(rows[1..])
      case None => Some(rows[0].obs.date)
      case Some(m) =>
        assert forall k :: 1 <= k < |rows| ==> rows[k] == rows[1..][k - 1];
        if DateLe(m, rows[0].obs.date) then Some(rows[0].obs.date) else Some(m)
  }

  /** The "Time window" choice. */
  datatype TimeWindow = Last12Months | AllData

  /** No row of the whole table is more than twelve months later than `d`. */
  predicate WithinYearOfLatest(rows: seq<Row>, d: Date) {
    forall y :: y in rows ==> MonthIndex(y.obs.date) - MonthIndex(d) <= 12
  }

  /** `app.py` lines 99-103: with "Last 12 months" the rows dated on or after the
      latest date of the whole table minus twelve months, in order; with
      "All data" every row. */
  function ApplyWindow(rows: seq<Row>, w: TimeWindow): (r: seq<Row>)
    ensures w == AllData ==> r == rows
    ensures w == Last12Months && rows != [] ==>
              forall x :: x in r <==> x in rows && DateLe(TwelveMonthsBefore(LatestDate(rows).value), x.obs.date)
    ensures w == Last12Months ==> forall x :: x in r <==> x in rows && WithinYearOfLatest(rows, x.obs.date)
  {
    match w
    case AllData => rows
    case Last12Months =>
      match LatestDate(rows)
      case None => []
      case Some(latest) =>
        var cutoff := TwelveMonthsBefore(latest);
        assert forall x :: x in rows ==> (DateLe(cutoff, x.obs.date) <==> WithinYearOfLatest(rows, x.obs.date)) by {
          forall x | x in rows
            ensures DateLe(cutoff, x.obs.date) <==> WithinYearOfLatest(rows, x.obs.date)
          {
            DateLeByMonthIndex(cutoff, x.obs.date);
            var k :| 0 <= k < |rows| && rows[k].obs.date == latest;
            forall y | y in rows
              ensures MonthIndex(y.obs.date) <= MonthIndex(latest)
            {
              DateLeByMonthIndex(y.obs.date, latest);
            }
          }
        }
        Filter(rows, OnOrAfter(cutoff))
  }

  /** The window keeps the rows it admits in table order. */
  lemma WindowKeepsOrder(rows: seq<Row>, w: TimeWindow)
    ensures IsSubsequence(ApplyWindow(rows, w), rows)
  {
    match w
    case AllData =>
      IsSubsequenceReflexive(rows);
    case Last12Months =>
      if rows != [] {
        FilterKeepsOrder(rows, OnOrAfter(TwelveMonthsBefore(LatestDate(rows).value)));
      }
  }

  /** The mask `df["date"] >= cutoff`. */
  function OnOrAfter(cutoff: Date): Row -> bool {
    (x: Row) => DateLe(cutoff, x.obs.date)
  }

  /** `app.py` line 105: the windowed rows whose series is selected, in order. */
  function SelectSeries(rows: seq<Row>, selection: seq<string>): (r: seq<Row>)
    ensures forall x :: x in r <==> x in rows && x.obs.seriesName in selection
  {
    Filter(rows, Selected(selection))
  }

  /** The series filter keeps the selected rows in their order. */
  lemma SelectionKeepsOrder(rows: seq<Row>, selection: seq<string>)
    ensures IsSubsequence(SelectSeries(rows, selection), rows)
  {
    FilterKeepsOrder(rows, Selected(selection));
  }

  /** The mask `df["series_name"].isin(selection)`. */
  function Selected(selection: seq<string>): Row -> bool {
    (x: Row) => x.obs.seriesName in selection
  }

  /** The "View mode" choice. */
  datatype ViewMode = Levels | YearOverYear

  /** A plotted row: the value drawn and the unit its chart is grouped by. */
  datatype PlotPoint = PlotPoint(row: Row, plotValue: real, plotUnit: string)

  const YoyUnit: string := "Percent (YoY)"

  /** `app.py` lines 114-120: in year-over-year mode the rows with a year-over-year
      value, plotting it in percent; in levels mode every row, plotting its
      value in its unit. */
  function PlotPoints(work: seq<Row>, mode: ViewMode): (pts: seq<PlotPoint>)
    ensures mode == YearOverYear ==>
              forall p :: p in pts ==> p.row in work && p.row.yoy == Some(p.plotValue) && p.plotUnit == YoyUnit
    ensures mode == YearOverYear ==>
              forall x :: x in work && x.yoy.Some? ==> PlotPoint(x, x.yoy.value, YoyUnit) in pts
    ensures mode == YearOverYear ==> YoyPointsOf(Filter(work, HasYoy), pts)
    ensures mode == Levels ==>
              |pts| == |work| && forall k :: 0 <= k < |work| ==> pts[k] == PlotPoint(work[k], work[k].obs.value, work[k].unit)
  {
    if work == [] then []
    else
      var rest := PlotPoints(work[1..], mode);
      assert forall x :: x in work <==> x == work[0] || x in work[1..];
      var x := work[0];
      FilterCons(x, work[1..], HasYoy);
      assert work == [x] + work[1..];
      match mode
      case Levels => [PlotPoint(x, x.obs.value, x.unit)] + rest
      case YearOverYear =>
        if x.yoy.Some? then
          YoyPointsCons(x, Filter(work[1..], HasYoy), rest);
          [PlotPoint(x, x.yoy.value, YoyUnit)] + rest
        else rest
  }

  /** The mask "this row has a year-over-year value" (`dropna(subset=["yoy"])`). */
  const HasYoy: Row -> bool := (x: Row) => x.yoy.Some?

  /** `pts` plots the rows `kept` one by one, in order, each with its
      year-over-year value in percent. */
  predicate YoyPointsOf(kept: seq<Row>, pts: seq<PlotPoint>) {
    && |pts| == |kept|
    && forall k :: 0 <= k < |kept| ==> kept[k].yoy.Some? && pts[k] == PlotPoint(kept[k], kept[k].yoy.value, YoyUnit)
  }

  lemma YoyPointsCons(x: Row, kept: seq<Row>, pts: seq<PlotPoint>)
    requires x.yoy.Some? && YoyPointsOf(kept, pts)
    ensures YoyPointsOf([x] + kept, [PlotPoint(x, x.yoy.value, YoyUnit)] + pts)
  {
    forall k | 1 <= k < |kept| + 1
      ensures ([x] + kept)[k].yoy.Some?
              && ([PlotPoint(x, x.yoy.value, YoyUnit)] + pts)[k] == PlotPoint(([x] + kept)[k], ([x] + kept)[k].yoy.value, YoyUnit)
    {
      ConsIndex([x] + kept, x, kept, k);
      ConsIndex([PlotPoint(x, x.yoy.value, YoyUnit)] + pts, PlotPoint(x, x.yoy.value, YoyUnit), pts, k);
    }
  }

  /** One tile of the latest-month summary: "N/A", or the level with the
      year-over-year change when there is one. */
  datatype Metric = NotAvailable | Shown(level: real, yoy: Option<real>)

  /** Two plotted points fall in the same cell of one chart: same chart
      unit, same series, same month. */
  predicate SameCell(p: PlotPoint, q: PlotPoint) {
    p.plotUnit == q.plotUnit && p.row.obs.seriesName == q.row.obs.seriesName && p.row.obs.date == q.row.obs.date
  }

  /** `app.py` lines 128-132: one chart per `plot_unit`, each built by
      `g.pivot(index="Month", columns="series_name")`, which raises "Index
      contains duplicate entries" when a chart has two points for one series
      in one month. */
  predicate PivotClash(pts: seq<PlotPoint>): (b: bool)
    ensures b ==> 2 <= |pts|
    ensures (forall i, j :: 0 <= i < j < |pts| ==> pts[i].row.obs.date != pts[j].row.obs.date) ==> !b
  {
    exists i, j :: 0 <= i < j < |pts| && SameCell(pts[i], pts[j])
  }

  /** Two rows of one series in one month. */
  predicate SameSeriesMonth(x: Row, y: Row) {
    x.obs.seriesName == y.obs.seriesName && x.obs.date == y.obs.date
  }

  /** In levels mode each series is drawn in its own unit, so a chart clashes
      exactly when the shown rows hold two rows of one series in one month. */
  lemma {:induction false} LevelsChartClash(work: seq<Row>)
    requires forall x :: x in work ==> x.unit == UnitOf(x.obs.seriesName)
    ensures PivotClash(PlotPoints(work, Levels)) <==> exists i, j :: 0 <= i < j < |work| && SameSeriesMonth(work[i], work[j])
  {
    var pts := PlotPoints(work, Levels);
    forall k | 0 <= k < |work|
      ensures pts[k].row == work[k] && pts[k].plotUnit == UnitOf(work[k].obs.seriesName)
    {
      LevelsPoint(work, k);
    }
    ClashByPosition(work, pts);
  }

  /** In year-over-year mode every point is in percent, so a chart clashes
      exactly when the rows with a year-over-year value hold two rows of one
      series in one month, identical rows included. */
  lemma {:induction false} YoyChartClash(work: seq<Row>)
    ensures var kept := Filter(work, HasYoy);
            PivotClash(PlotPoints(work, YearOverYear)) <==> exists i, j :: 0 <= i < j < |kept| && SameSeriesMonth(kept[i], kept[j])
  {
    YoyPlotPoints(work);
    ClashOfYoyPoints(Filter(work, HasYoy), PlotPoints(work, YearOverYear));
  }

  lemma YoyPlotPoints(work: seq<Row>)
    ensures YoyPointsOf(Filter(work, HasYoy), PlotPoints(work, YearOverYear))
  {
  }

  /** Points plotting rows one by one in percent clash exactly when two of
      the rows share series and month. */
  lemma {:induction false} ClashOfYoyPoints(kept: seq<Row>, pts: seq<PlotPoint>)
    requires YoyPointsOf(kept, pts)
    ensures PivotClash(pts) <==> exists i, j :: 0 <= i < j < |kept| && SameSeriesMonth(kept[i], kept[j])
  {
    if PivotClash(pts) {
      var i, j :| 0 <= i < j < |pts| && SameCell(pts[i], pts[j]);
      assert SameSeriesMonth(kept[i], kept[j]);
    }
    if exists i, j :: 0 <= i < j < |kept| && SameSeriesMonth(kept[i], kept[j]) {
      var i, j :| 0 <= i < j < |kept| && SameSeriesMonth(kept[i], kept[j]);
      assert SameCell(pts[i], pts[j]);
    }
  }

  /** Points drawn one per row, in a unit fixed by the series name, clash
      exactly when two rows share series and month. */
  lemma {:induction false} ClashByPosition(work: seq<Row>, pts: seq<PlotPoint>)
    requires |pts| == |work|
    requires forall k :: 0 <= k < |work| ==> pts[k].row == work[k] && pts[k].plotUnit == UnitOf(work[k].obs.seriesName)
    ensures PivotClash(pts) <==> exists i, j :: 0 <= i < j < |work| && SameSeriesMonth(work[i], work[j])
  {
    if PivotClash(pts) {
      var i, j :| 0 <= i < j < |pts| && SameCell(pts[i], pts[j]);
      assert SameSeriesMonth(work[i], work[j]);
    }
    if exists i, j :: 0 <= i < j < |work| && SameSeriesMonth(work[i], work[j]) {
      var i, j :| 0 <= i < j < |work| && SameSeriesMonth(work[i], work[j]);
      assert SameCell(pts[i], pts[j]);
    }
  }

  /** The levels-mode point drawn for a row of a table whose units follow
      the series names. */
  lemma LevelsPoint(work: seq<Row>, k: int)
    requires forall x :: x in work ==> x.unit == UnitOf(x.obs.seriesName)
    requires 0 <= k < |work|
    ensures |PlotPoints(work, Levels)| == |work|
    ensures PlotPoints(work, Levels)[k] == PlotPoint(work[k], work[k].obs.value, UnitOf(work[k].obs.seriesName))
  {
    assert work[k] in work;
  }

  /** Why the page stops early: no series selected, nothing left after
      filtering, pandas refusing to pivot a chart with duplicate entries, or
      pandas refusing to reindex duplicate labels. */
  datatype Stop = NoSeriesSelected | NoDataForFilters | DuplicateChartEntries | DuplicateSeriesLabels

  /** Rows of series `name` dated `d`. */
  function RowsAt(rows: seq<Row>, d: Date, name: string): (r: seq<Row>)
    ensures forall x :: x in r <==> x in rows && x.obs.date == d && x.obs.seriesName == name
  {
    Filter(rows, At(d, name))
  }

  function At(d: Date, name: string): Row -> bool {
    (x: Row) => x.obs.date == d && x.obs.seriesName == name
  }

  /** `app.py` lines 147-161: for each selected series, in selection order, the row
      of the full table at the summary date, or "N/A" when it has none. A
      selected series with two rows at that date makes `reindex` raise. */
  function Summary(rows: seq<Row>, d: Date, selection: seq<string>): (r: Result<seq<Metric>, Stop>)
    ensures r.Failure? <==> exists k :: 0 <= k < |selection| && |RowsAt(rows, d, selection[k])| >= 2
    ensures r.Failure? ==> r.error == DuplicateSeriesLabels
    ensures r.Success? ==> |r.value| == |selection|
    ensures r.Success? ==>
              forall k :: 0 <= k < |selection| ==>
                (r.value[k] == NotAvailable <==> forall x :: x in rows ==> !(x.obs.date == d && x.obs.seriesName == selection[k]))
    ensures r.Success? ==>
              forall k :: 0 <= k < |selection| && r.value[k].Shown? ==>
                exists x :: x in rows && x.obs.date == d && x.obs.seriesName == selection[k]
                            && x.obs.value == r.value[k].level && x.yoy == r.value[k].yoy
  {
    if exists k :: 0 <= k < |selection| && |RowsAt(rows, d, selection[k])| >= 2 then Failure(DuplicateSeriesLabels)
    else
      Success(seq(|selection|, k requires 0 <= k < |selection| => MetricOf(RowsAt(rows, d, selection[k]))))
  }

  /** The tile for the rows one lookup found. */
  function MetricOf(found: seq<Row>): Metric {
    if found == [] then NotAvailable else Shown(found[0].obs.value, found[0].yoy)
  }

  /** What the page shows once every guard has passed. */
  datatype View = View(work: seq<Row>, plot: seq<PlotPoint>, latestShown: Date, summary: seq<Metric>)

  /** The time window admits a row dated `d` of the loaded table. */
  predicate Visible(table: seq<Observation>, w: TimeWindow, d: Date) {
    w == AllData || forall j :: 0 <= j < |table| ==> MonthIndex(table[j].date) - MonthIndex(d) <= 12
  }

  /** The script of `app.py` from line 49 to line 161 on the loaded table:
      the page stops at the first guard that fails, and is shown exactly
      when none does. */
  function Dashboard(table: seq<Observation>, w: TimeWindow, selection: seq<string>, mode: ViewMode): (r: Result<View, Stop>)
    ensures r == Failure(NoSeriesSelected) <==> selection == []
    ensures r.Success? ==> r.value.work == SelectSeries(ApplyWindow(DeriveColumns(table), w), selection)
    ensures r.Success? ==> r.value.work != []
    ensures r.Success? ==> r.value.plot == PlotPoints(r.value.work, mode)
    ensures r.Success? ==> Some(r.value.latestShown) == LatestDate(r.value.work)
    ensures r.Success? ==> Summary(DeriveColumns(table), r.value.latestShown, selection) == Success(r.value.summary)
    ensures r == Failure(NoDataForFilters) <==>
              selection != [] && SelectSeries(ApplyWindow(DeriveColumns(table), w), selection) == []
    ensures var work := SelectSeries(ApplyWindow(DeriveColumns(table), w), selection);
            r == Failure(DuplicateChartEntries) <==> selection != [] && work != [] && PivotClash(PlotPoints(work, mode))
    ensures var work := SelectSeries(ApplyWindow(DeriveColumns(table), w), selection);
            r == Failure(DuplicateSeriesLabels) <==>
              selection != [] && work != [] && !PivotClash(PlotPoints(work, mode))
              && Summary(DeriveColumns(table), LatestDate(work).value, selection).Failure?
  {
    if selection == [] then Failure(NoSeriesSelected)
    else
      var rows := DeriveColumns(table);
      var work := SelectSeries(ApplyWindow(rows, w), selection);
      if work == [] then Failure(NoDataForFilters)
      else
        var plot := PlotPoints(work, mode);
        if PivotClash(plot) then Failure(DuplicateChartEntries)
        else
          var latest := LatestDate(work).value;
          match Summary(rows, latest, selection)
          case Failure(e) => Failure(e)
          case Success(metrics) => Success(View(work, plot, latest, metrics))
  }

  /** In levels mode the summary's `reindex` never raises: two rows of a
      selected series at the latest shown month are both shown, so the
      chart's pivot has already stopped the page. */
  lemma LevelsModeStopsAtChart(table: seq<Observation>, w: TimeWindow, selection: seq<string>)
    ensures Dashboard(table, w, selection, Levels) != Failure(DuplicateSeriesLabels)
  {
    var rows := DeriveColumns(table);
    var work := SelectSeries(ApplyWindow(rows, w), selection);
    if selection != [] && work != [] && Summary(rows, LatestDate(work).value, selection).Failure? {
      SummaryClashIsShown(rows, w, selection);
      ShownUnits(table, w, selection);
      LevelsChartClash(work);
    }
  }

  /** When the summary's lookup finds two rows of a selected series, the
      shown rows hold two rows of one series in one month. */
  lemma SummaryClashIsShown(rows: seq<Row>, w: TimeWindow, selection: seq<string>)
    requires SelectSeries(ApplyWindow(rows, w), selection) != []
    requires Summary(rows, LatestDate(SelectSeries(ApplyWindow(rows, w), selection)).value, selection).Failure?
    ensures var work := SelectSeries(ApplyWindow(rows, w), selection);
            exists i, j :: 0 <= i < j < |work| && SameSeriesMonth(work[i], work[j])
  {
    var work := SelectSeries(ApplyWindow(rows, w), selection);
    var d := LatestDate(work).value;
    var k :| 0 <= k < |selection| && |RowsAt(rows, d, selection[k])| >= 2;
    LookupSeesFilteredRows(rows, w, selection, selection[k]);
    FilterTwoPositions(work, At(d, selection[k]));
    var i, j :| 0 <= i < j < |work| && At(d, selection[k])(work[i]) && At(d, selection[k])(work[j]);
    assert SameSeriesMonth(work[i], work[j]);
  }

  /** Every shown row carries the unit of its series name. */
  lemma ShownUnits(table: seq<Observation>, w: TimeWindow, selection: seq<string>)
    ensures forall x :: x in SelectSeries(ApplyWindow(DeriveColumns(table), w), selection) ==> x.unit == UnitOf(x.obs.seriesName)
  {
    var rows := DeriveColumns(table);
    forall x | x in SelectSeries(ApplyWindow(rows, w), selection)
      ensures x.unit == UnitOf(x.obs.seriesName)
    {
      assert x in rows;
      var l :| 0 <= l < |rows| && rows[l] == x;
    }
  }

  /** Every row the page works with is a row of the full loaded table whose
      series is selected and whose date the window admits, carrying the unit
      and the year-over-year value computed on the full table: filtering
      never changes a surviving row's year-over-year value. Conversely every
      such row is shown. */
  lemma ShownRowsKeepFullTableColumns(table: seq<Observation>, w: TimeWindow, selection: seq<string>)
    ensures forall x :: x in SelectSeries(ApplyWindow(DeriveColumns(table), w), selection) <==>
              exists j :: 0 <= j < |table| && table[j].seriesName in selection && Visible(table, w, table[j].date)
                          && x == Row(table[j], UnitOf(table[j].seriesName), YoyAt(table, j))
  {
    var rows := DeriveColumns(table);
    forall x
      ensures x in SelectSeries(ApplyWindow(rows, w), selection) <==>
                exists j :: 0 <= j < |table| && table[j].seriesName in selection && Visible(table, w, table[j].date)
                            && x == Row(table[j], UnitOf(table[j].seriesName), YoyAt(table, j))
    {
      WithinYearIsVisible(table, x.obs.date);
      if x in rows {
        var j :| 0 <= j < |rows| && rows[j] == x;
        assert x == Row(table[j], UnitOf(table[j].seriesName), YoyAt(table, j));
      }
    }
  }

  lemma WithinYearIsVisible(table: seq<Observation>, d: Date)
    ensures WithinYearOfLatest(DeriveColumns(table), d) <==> Visible(table, Last12Months, d)
  {
    var rows := DeriveColumns(table);
    if WithinYearOfLatest(rows, d) {
      forall j | 0 <= j < |table|
        ensures MonthIndex(table[j].date) - MonthIndex(d) <= 12
      {
        assert rows[j] in rows;
      }
    }
  }

  /** The "no data" stop happens exactly when a series is selected but no
      row of the loaded table is both selected and inside the window. */
  lemma NoDataExactly(table: seq<Observation>, w: TimeWindow, selection: seq<string>, mode: ViewMode)
    ensures Dashboard(table, w, selection, mode) == Failure(NoDataForFilters) <==>
              selection != [] &&
              forall j :: 0 <= j < |table| && table[j].seriesName in selection ==> !Visible(table, w, table[j].date)
  {
    ShownRowsKeepFullTableColumns(table, w, selection);
    var work := SelectSeries(ApplyWindow(DeriveColumns(table), w), selection);
    if work != [] {
      assert work[0] in work;
    }
  }

  /** The summary looks the latest shown month up in the full table, yet
      finds exactly the rows the filtered view holds for that month: both
      filters admit every row of a selected series at that date. */
  lemma SummaryAgreesWithShownRows(table: seq<Observation>, w: TimeWindow, selection: seq<string>, mode: ViewMode)
    ensures var r := Dashboard(table, w, selection, mode);
            r.Success? ==> Summary(r.value.work, r.value.latestShown, selection) == Success(r.value.summary)
  {
    if Dashboard(table, w, selection, mode).Failure? {
      return;
    }
    var v := Dashboard(table, w, selection, mode).value;
    var rows := DeriveColumns(table);
    forall name | name in selection
      ensures RowsAt(v.work, v.latestShown, name) == RowsAt(rows, v.latestShown, name)
    {
      LookupSeesFilteredRows(rows, w, selection, name);
    }
    SummaryByLookups(v.work, rows, v.latestShown, selection);
  }

  lemma LookupSeesFilteredRows(rows: seq<Row>, w: TimeWindow, selection: seq<string>, name: string)
    requires name in selection
    requires SelectSeries(ApplyWindow(rows, w), selection) != []
    ensures var work := SelectSeries(ApplyWindow(rows, w), selection);
            var d := LatestDate(work).value;
            RowsAt(work, d, name) == RowsAt(rows, d, name)
  {
    var windowed := ApplyWindow(rows, w);
    var work := SelectSeries(windowed, selection);
    var d := LatestDate(work).value;
    var k0 :| 0 <= k0 < |work| && work[k0].obs.date == d;
    assert work[k0] in windowed;
    FilterNarrow(windowed, Selected(selection), At(d, name));
    if w == Last12Months {
      var cutoff := TwelveMonthsBefore(LatestDate(rows).value);
      assert DateLe(cutoff, d);
      FilterNarrow(rows, OnOrAfter(cutoff), At(d, name));
    }
  }

  /** The summary depends on a table only through its per-series lookups. */
  lemma SummaryByLookups(a: seq<Row>, b: seq<Row>, d: Date, selection: seq<string>)
    requires forall name :: name in selection ==> RowsAt(a, d, name) == RowsAt(b, d, name)
    ensures Summary(a, d, selection) == Summary(b, d, selection)
  {
    assert forall k :: 0 <= k < |selection| ==> RowsAt(a, d, selection[k]) == RowsAt(b, d, selection[k]);
    if Summary(a, d, selection).Success? {
      var ma, mb := Summary(a, d, selection).value, Summary(b, d, selection).value;
      assert |ma| == |mb|;
      forall k | 0 <= k < |selection|
        ensures ma[k] == mb[k]
      {
        assert ma[k] == MetricOf(RowsAt(a, d, selection[k]));
        assert mb[k] == MetricOf(RowsAt(b, d, selection[k]));
      }
      assert ma == mb;
      assert Summary(b, d, selection) == Success(mb);
    }
  }
}

=== FILE: dates.dfy ===
/** Calendar months as the pipeline uses them: every date it builds or loads
    is the first day of a month, so a date is a (year, month) pair. */
module Dates {
  import opened Wrappers
  import opened Text

  type Month = m: int | 1 <= m <= 12 witness 1

  /** The first day of `month` in `year`. */
  datatype Date = Date(year: int, month: Month)

  /** Months elapsed since January of year 0: a strictly increasing
      numbering of all months. */
  function MonthIndex(d: Date): int {
    d.year * 12 + d.month - 1
  }

  /** Chronological order of first-of-month dates (pandas' datetime order). */
  predicate DateLe(a: Date, b: Date) {
    a.year < b.year || (a.year == b.year && a.month <= b.month)
  }

  lemma DateLeByMonthIndex(a: Date, b: Date)
    ensures DateLe(a, b) <==> MonthIndex(a) <= MonthIndex(b)
  {
  }

  lemma MonthIndexInjective(a: Date, b: Date)
    requires MonthIndex(a) == MonthIndex(b)
    ensures a == b
  {
    DateLeByMonthIndex(a, b);
    DateLeByMonthIndex(b, a);
  }

  /** `date - pd.DateOffset(months=12)` on a first-of-month date: the same
      month one year earlier, exactly twelve months back. */
  function TwelveMonthsBefore(d: Date): (r: Date)
    ensures MonthIndex(r) == MonthIndex(d) - 12
    ensures DateLe(r, d) && r != d
  {
    Date(d.year - 1, d.month)
  }

  /** Python's `f"{m:02d}"`: at least two characters, zero-padded when
      `m` is a single non-negative digit, a minus sign kept in front. */
  function Pad2(m: int): string {
    if 0 <= m < 10 then "0" + NatText(m) else IntText(m)
  }

  /** The padded text is two digits spelling `m` exactly when `0 <= m < 100`;
      otherwise it is longer or carries a sign. */
  lemma Pad2Facts(m: int)
    ensures |Pad2(m)| >= 2
    ensures |Pad2(m)| == 2 && AllDigits(Pad2(m)) <==> 0 <= m < 100
    ensures 0 <= m < 100 ==> DigitsValue(Pad2(m)) == m
  {
    var p := Pad2(m);
    if 0 <= m < 10 {
      assert p[..1] == "0";
      assert DigitsValue("0"[..0]) == 0;
      NatTextRoundTrip(m);
      assert DigitsValue(NatText(m)[..0]) == 0;
    } else if 10 <= m < 100 {
      NatTextRoundTrip(m);
    } else if m < 0 {
      assert p[0] == '-';
    }
  }

  /** The date text `collect.py` builds: `f"{year}-{month:02d}-01"`. */
  function DateText(yearText: string, month: int): string {
    yearText + "-" + Pad2(month) + "-01"
  }

  /** `pd.to_datetime(text, errors="coerce")` on texts of the shape
      `YYYY-MM-01`: a date when the year has four digits and the month is
      `01`..`12`, `None` (pandas' NaT) otherwise. */
  function ParseIsoDate(t: string): (r: Option<Date>)
    ensures r.Some? ==> |t| == 10 && 0 <= r.value.year < 10000
  {
    if |t| == 10 && AllDigits(t[..4]) && t[4] == '-' && AllDigits(t[5..7]) && t[7] == '-' && t[8..] == "01" then
      var m := DigitsValue(t[5..7]);
      DigitsValueBound(t[..4]);
      if 1 <= m <= 12 then Some(Date(DigitsValue(t[..4]), m)) else None
    else None
  }

  /** The text built from a year text and a month number parses back to that
      first-of-month date exactly when the year text is four digits and the
      month lies in 1..12; every other combination (month 0, 13, 14, a
      negative month, a short year) becomes NaT. */
  lemma DateTextRoundTrip(yt: string, m: int)
    ensures ParseIsoDate(DateText(yt, m))
              == if |yt| == 4 && AllDigits(yt) && 1 <= m <= 12 then Some(Date(DigitsValue(yt), m)) else None
  {
    var p := Pad2(m);
    Pad2Facts(m);
    if |yt| == 4 && |p| == 2 {
      ParseFourTwo(yt, p);
    } else if |yt| == 4 {
      assert |DateText(yt, m)| != 10;
    } else {
      ParseNotFourDigitYear(yt, p);
    }
  }

  lemma ParseFourTwo(yt: string, p: string)
    requires |yt| == 4 && |p| == 2
    ensures ParseIsoDate(yt + "-" + p + "-01")
              == if AllDigits(yt) && AllDigits(p) && 1 <= DigitsValue(p) <= 12
                 then Some(Date(DigitsValue(yt), DigitsValue(p))) else None
  {
    var t := yt + "-" + p + "-01";
    assert t[..4] == yt;
    assert t[4] == '-';
    assert t[5..7] == p;
    assert t[7] == '-';
    assert t[8..] == "01";
  }

  lemma ParseNotFourDigitYear(yt: string, p: string)
    requires |yt| != 4 && |p| >= 2
    ensures ParseIsoDate(yt + "-" + p + "-01") == None
  {
    var t := yt + "-" + p + "-01";
    if |t| == 10 {
      assert |yt| < 4;
      assert t[|yt|] == '-';
      assert t[..4][|yt|] == '-';
    }
  }

  /** The ISO text written for a first-of-month date: the year in
      decimal, then the two-digit month and day. */
  function IsoText(d: Date): string {
    DateText(IntText(d.year), d.month)
  }

  /** Writing a four-digit-year date and reading it back gives the date. */
  lemma IsoTextRoundTrip(d: Date)
    requires 1000 <= d.year <= 9999
    ensures ParseIsoDate(IsoText(d)) == Some(d)
  {
    NatTextRoundTrip(d.year);
    assert |NatText(d.year)| == 4 by {
      NatTextLength(d.year);
    }
    DateTextRoundTrip(NatText(d.year), d.month);
  }

  lemma {:induction false} NatTextLength(n: nat)
    requires 1000 <= n <= 9999
    ensures |NatText(n)| == 4
  {
    assert NatText(n) == NatText(n / 10) + [DigitChar(n % 10)];
    assert NatText(n / 10) == NatText(n / 100) + [DigitChar((n / 10) % 10)];
  }
}

=== FILE: observations.dfy ===
/** The observation table shared by the collector and the dashboard: one row
    per series per month, the two sort orders the program uses, and the
    order-preserving row filter behind every pandas boolean mask. */
module Observations {
  import opened Text
  import opened Dates

  /** One row of the stored table: the columns `series_name, series_id,
      date, value, period, periodName, year`. */
  datatype Observation = Observation(
    seriesName: string,
    seriesId: string,
    date: Date,
    value: real,
    period: string,
    periodName: string,
    year: int)

  /** The text column a sort uses before the date: the collector sorts by
      `(series_name, date)`, the dashboard by `(series_id, date)`. */
  datatype SortColumn = BySeriesName | BySeriesId

  function SortText(o: Observation, col: SortColumn): string {
    match col
    case BySeriesName => o.seriesName
    case BySeriesId => o.seriesId
  }

  /** Ascending order on (text column, date), as `sort_values([col, "date"])`. */
  predicate KeyLe(a: Observation, b: Observation, col: SortColumn) {
    var ka := SortText(a, col);
    var kb := SortText(b, col);
    StrLt(ka, kb) || (ka == kb && DateLe(a.date, b.date))
  }

  predicate SortedBy(s: seq<Observation>, col: SortColumn) {
    forall i, j :: 0 <= i < j < |s| ==> KeyLe(s[i], s[j], col)
  }

  lemma KeyLeTotal(a: Observation, b: Observation, col: SortColumn)
    ensures KeyLe(a, b, col) || KeyLe(b, a, col)
  {
    StrLeTotal(SortText(a, col), SortText(b, col));
  }

  lemma KeyLeTransitive(a: Observation, b: Observation, c: Observation, col: SortColumn)
    requires KeyLe(a, b, col) && KeyLe(b, c, col)
    ensures KeyLe(a, c, col)
  {
    var ka, kb, kc := SortText(a, col), SortText(b, col), SortText(c, col);
    if StrLt(ka, kb) && StrLt(kb, kc) {
      StrLtTransitive(ka, kb, kc);
    }
  }

  /** Inserts `x` before the first row it does not follow. */
  function Insert(x: Observation, s: seq<Observation>, col: SortColumn): (r: seq<Observation>)
    requires SortedBy(s, col)
    ensures SortedBy(r, col)
    ensures multiset(r) == multiset(s) + multiset{x}
    ensures forall y :: y in r <==> y == x || y in s
  {
    if s == [] then [x]
    else if KeyLe(x, s[0], col) then
      PrecedesAll(x, s, col);
      SortedCons(x, s, col);
      MembersOfMultiset([x] + s, s, x);
      [x] + s
    else
      SortedTail(s, col);
      var rest := Insert(x, s[1..], col);
      InsertBehindHead(x, s, rest, col);
      [s[0]] + rest
  }

  /** Putting the head back in front of the tail with `x` inserted. */
  lemma InsertBehindHead(x: Observation, s: seq<Observation>, rest: seq<Observation>, col: SortColumn)
    requires SortedBy(s, col) && s != [] && !KeyLe(x, s[0], col)
    requires SortedBy(rest, col)
    requires multiset(rest) == multiset(s[1..]) + multiset{x}
    requires forall y :: y in rest <==> y == x || y in s[1..]
    ensures SortedBy([s[0]] + rest, col)
    ensures multiset([s[0]] + rest) == multiset(s) + multiset{x}
    ensures forall y :: y in [s[0]] + rest <==> y == x || y in s
  {
    assert s == [s[0]] + s[1..];
    HeadPrecedesInsert(x, s, rest, col);
    SortedCons(s[0], rest, col);
    MembersOfMultiset([s[0]] + rest, s, x);
  }

  /** A sequence whose multiset is that of `s` plus `x` holds exactly `x`
      and the elements of `s`. */
  lemma MembersOfMultiset<T>(r: seq<T>, s: seq<T>, x: T)
    requires multiset(r) == multiset(s) + multiset{x}
    ensures forall y :: y in r <==> y == x || y in s
  {
    forall y
      ensures y in r <==> y == x || y in s
    {
      assert y in r <==> y in multiset(r);
      assert y in s <==> y in multiset(s);
    }
  }

  /** A row preceding the head of a sorted table precedes all of it. */
  lemma PrecedesAll(x: Observation, s: seq<Observation>, col: SortColumn)
    requires SortedBy(s, col) && s != [] && KeyLe(x, s[0], col)
    ensures forall j :: 0 <= j < |s| ==> KeyLe(x, s[j], col)
  {
    forall j | 0 < j < |s|
      ensures KeyLe(x, s[j], col)
    {
      KeyLeTransitive(x, s[0], s[j], col);
    }
  }

  lemma SortedTail(s: seq<Observation>, col: SortColumn)
    requires SortedBy(s, col) && s != []
    ensures SortedBy(s[1..], col)
  {
    forall i, j | 0 <= i < j < |s| - 1
      ensures KeyLe(s[1..][i], s[1..][j], col)
    {
      assert s[1..][i] == s[i + 1] && s[1..][j] == s[j + 1];
    }
  }

  /** The head of a sorted table precedes every row of the rest with a
      later row inserted. */
  lemma HeadPrecedesInsert(x: Observation, s: seq<Observation>, rest: seq<Observation>, col: SortColumn)
    requires SortedBy(s, col) && s != [] && !KeyLe(x, s[0], col)
    requires forall y :: y in rest <==> y == x || y in s[1..]
    ensures forall k :: 0 <= k < |rest| ==> KeyLe(s[0], rest[k], col)
  {
    KeyLeTotal(x, s[0], col);
    forall k | 0 <= k < |rest|
      ensures KeyLe(s[0], rest[k], col)
    {
      if rest[k] != x {
        assert rest[k] in s[1..];
        var j :| 0 <= j < |s[1..]| && s[1..][j] == rest[k];
        assert s[j + 1] == rest[k];
      }
    }
  }

  /** A row that precedes every row of a sorted table can go in front. */
  lemma SortedCons(x: Observation, s: seq<Observation>, col: SortColumn)
    requires SortedBy(s, col)
    requires forall k :: 0 <= k < |s| ==> KeyLe(x, s[k], col)
    ensures SortedBy([x] + s, col)
  {
    var r := [x] + s;
    forall i, j | 0 <= i < j < |r|
      ensures KeyLe(r[i], r[j], col)
    {
      if i > 0 {
        assert r[i] == s[i - 1] && r[j] == s[j - 1];
      } else {
        assert r[j] == s[j - 1];
      }
    }
  }

  /** The table sorted ascending by (text column, date): a sorted permutation
      of the input, as `df.sort_values([col, "date"])`. */
  function SortBy(s: seq<Observation>, col: SortColumn): (r: seq<Observation>)
    ensures SortedBy(r, col)
    ensures multiset(r) == multiset(s)
  {
    if s == [] then []
    else
      assert s == [s[0]] + s[1..];
      Insert(s[0], SortBy(s[1..], col), col)
  }

  /** In a table sorted on a text column, the rows sharing that column's
      value form one contiguous block. */
  lemma SortedGroupsContiguous(s: seq<Observation>, col: SortColumn, i: int, l: int, j: int)
    requires SortedBy(s, col)
    requires 0 <= i <= l <= j < |s|
    requires SortText(s[i], col) == SortText(s[j], col)
    ensures SortText(s[l], col) == SortText(s[i], col)
  {
    if i < l < j {
      assert KeyLe(s[i], s[l], col) && KeyLe(s[l], s[j], col);
      if SortText(s[l], col) != SortText(s[i], col) {
        assert StrLt(SortText(s[i], col), SortText(s[l], col));
        assert StrLt(SortText(s[l], col), SortText(s[j], col));
        StrLtTransitive(SortText(s[i], col), SortText(s[l], col), SortText(s[j], col));
      }
    }
  }

  /** `r` is `s` with some elements removed, the rest in their order. */
  predicate IsSubsequence<T(==, !new)>(r: seq<T>, s: seq<T>)
    decreases |s|
  {
    if r == [] then true
    else if s == [] then false
    else if r[0] == s[0] then IsSubsequence(r[1..], s[1..])
    else IsSubsequence(r, s[1..])
  }

  /** `s[mask]` for the mask `keep`: the elements satisfying `keep`, in
      their original order (multiplicities: `FilterCount`). */
  function Filter<T(==, !new)>(s: seq<T>, keep: T -> bool): (r: seq<T>)
    ensures forall x :: x in r <==> x in s && keep(x)
  {
    if s == [] then []
    else
      var rest := Filter(s[1..], keep);
      assert s == [s[0]] + s[1..];
      if keep(s[0]) then
        assert ([s[0]] + rest)[1..] == rest;
        [s[0]] + rest
      else rest
  }

  /** The kept elements stay in their original relative order. */
  lemma {:induction false} FilterKeepsOrder<T(!new)>(s: seq<T>, keep: T -> bool)
    ensures IsSubsequence(Filter(s, keep), s)
  {
    if s != [] {
      FilterKeepsOrder(s[1..], keep);
      FilterCons(s[0], s[1..], keep);
      assert s == [s[0]] + s[1..];
      var rest := Filter(s[1..], keep);
      if keep(s[0]) {
        assert ([s[0]] + rest)[1..] == rest;
      }
    }
  }

  /** Each kept element survives with its full multiplicity; every other
      element is gone. */
  lemma {:induction false} FilterCount<T(!new)>(s: seq<T>, keep: T -> bool, x: T)
    ensures multiset(Filter(s, keep))[x] == if keep(x) then multiset(s)[x] else 0
  {
    if s != [] {
      FilterCount(s[1..], keep, x);
      assert s == [s[0]] + s[1..];
    }
  }

  /** A mask that keeps two rows or more keeps two different positions. */
  lemma {:induction false} FilterTwoPositions<T(!new)>(s: seq<T>, keep: T -> bool)
    ensures |Filter(s, keep)| >= 2 ==> exists i, j :: 0 <= i < j < |s| && keep(s[i]) && keep(s[j])
  {
    if s != [] && |Filter(s, keep)| >= 2 {
      var t := s[1..];
      var rest := Filter(t, keep);
      assert Filter(s, keep) == (if keep(s[0]) then [s[0]] else []) + rest by {
        FilterCons(s[0], t, keep);
        assert s == [s[0]] + t;
      }
      if keep(s[0]) {
        var j := FilterWitness(t, keep);
        assert s[j + 1] == t[j];
        assert keep(s[0]) && keep(s[j + 1]);
      } else {
        FilterTwoPositions(t, keep);
        var i, j :| 0 <= i < j < |t| && keep(t[i]) && keep(t[j]);
        assert s[i + 1] == t[i] && s[j + 1] == t[j];
        assert keep(s[i + 1]) && keep(s[j + 1]);
      }
    }
  }

  /** A position the mask keeps, when it keeps anything. */
  lemma FilterWitness<T(!new)>(s: seq<T>, keep: T -> bool) returns (j: int)
    requires Filter(s, keep) != []
    ensures 0 <= j < |s| && keep(s[j])
  {
    assert Filter(s, keep)[0] in Filter(s, keep);
    j :| 0 <= j < |s| && s[j] == Filter(s, keep)[0];
  }

  lemma ConsIndex<T>(s: seq<T>, x: T, t: seq<T>, k: int)
    requires s == [x] + t && 1 <= k < |s|
    ensures s[k] == t[k - 1]
  {
  }

  lemma FilterCons<T(!new)>(x: T, t: seq<T>, keep: T -> bool)
    ensures Filter([x] + t, keep) == (if keep(x) then [x] else []) + Filter(t, keep)
  {
    assert ([x] + t)[1..] == t;
  }

  /** Filtering with a mask that a second mask implies, then with the second,
      is filtering with the second alone. */
  lemma {:induction false} FilterNarrow<T(!new)>(s: seq<T>, wide: T -> bool, narrow: T -> bool)
    requires forall x :: x in s && narrow(x) ==> wide(x)
    ensures Filter(Filter(s, wide), narrow) == Filter(s, narrow)
  {
    if s != [] {
      assert forall x :: x in s[1..] ==> x in s;
      FilterNarrow(s[1..], wide, narrow);
      var rest := Filter(s[1..], wide);
      if wide(s[0]) {
        assert Filter(s, wide) == [s[0]] + rest;
        assert ([s[0]] + rest)[1..] == rest;
      }
    }
  }

  /** Every sequence is a subsequence of itself. */
  lemma {:induction false} IsSubsequenceReflexive<T(!new)>(s: seq<T>)
    ensures IsSubsequence(s, s)
  {
    if s != [] {
      IsSubsequenceReflexive(s[1..]);
    }
  }
}

=== FILE: text.dfy ===
/** The small pieces of Python text handling the pipeline relies on:
    `int(text)`, `float(text)`, `str(n)`, `f"{n:02d}"` and the
    lexicographic order of `str` values used by pandas' sorts. */
module Text {
  import opened Wrappers

  predicate IsDigit(c: char) {
    '0' <= c <= '9'
  }

  predicate AllDigits(s: string) {
    forall i :: 0 <= i < |s| ==> IsDigit(s[i])
  }

  function DigitValue(c: char): nat
    requires IsDigit(c)
  {
    c as int - '0' as int
  }

  function DigitChar(d: nat): (c: char)
    requires d < 10
    ensures IsDigit(c) && DigitValue(c) == d
  {
    ('0' as int + d) as char
  }

  /** The number a string of decimal digits denotes (leading zeros allowed). */
  function DigitsValue(s: string): nat
    requires AllDigits(s)
  {
    if s == [] then 0 else DigitsValue(s[..|s| - 1]) * 10 + DigitValue(s[|s| - 1])
  }

  /** `n` digits denote a number below `10^n`. */
  lemma {:induction false} DigitsValueBound(s: string)
    requires AllDigits(s)
    ensures DigitsValue(s) < Pow10(|s|)
  {
    if s != [] {
      DigitsValueBound(s[..|s| - 1]);
    }
  }

  /** `str(n)` for a natural number: shortest decimal text, no leading zeros. */
  function NatText(n: nat): (s: string)
    ensures AllDigits(s)
    ensures |s| == 1 <==> n < 10
    ensures |s| == 2 <==> 10 <= n < 100
  {
    if n < 10 then [DigitChar(n)] else NatText(n / 10) + [DigitChar(n % 10)]
  }

  /** `str(i)` for any integer. */
  function IntText(i: int): string {
    if i < 0 then "-" + NatText(-i) else NatText(i)
  }

  /** Reading back the digits `str(n)` writes gives `n`. */
  lemma {:induction false} NatTextRoundTrip(n: nat)
    ensures DigitsValue(NatText(n)) == n
  {
    if n >= 10 {
      var s := NatText(n);
      assert s[..|s| - 1] == NatText(n / 10);
      NatTextRoundTrip(n / 10);
    }
  }

  /** Python's `int(text)`: an optional sign followed by at least one decimal
      digit; anything else raises, which is `None` here. */
  function ParseInt(s: string): (r: Option<int>)
    ensures r.Some? ==> |s| > 0 && AllDigits(s[1..]) && (IsDigit(s[0]) || (|s| > 1 && (s[0] == '-' || s[0] == '+')))
    ensures r.Some? && r.value < 0 ==> s[0] == '-'
    ensures |s| > 0 && AllDigits(s) ==> r == Some(DigitsValue(s))
  {
    if |s| > 0 && (s[0] == '-' || s[0] == '+') then
      var digits := s[1..];
      if |digits| > 0 && AllDigits(digits) then
        var n: int := DigitsValue(digits);
        Some(if s[0] == '-' then -n else n)
      else None
    else if |s| > 0 && AllDigits(s) then Some(DigitsValue(s))
    else None
  }

  /** `int(str(i)) == i` for every integer. */
  lemma ParseIntRoundTrip(i: int)
    ensures ParseInt(IntText(i)) == Some(i)
  {
    var s := IntText(i);
    if i < 0 {
      assert s[0] == '-';
      assert s[1..] == NatText(-i);
      NatTextRoundTrip(-i);
    } else {
      assert IsDigit(s[0]);
      NatTextRoundTrip(i);
    }
  }

  /** `int` rejects the empty text, a lone sign and any text holding a
      character that is neither a digit nor a leading sign. This spells
      out, for readers, the contrapositive of `ParseInt`'s first ensures. */
  lemma ParseIntRejects(s: string)
    requires || s == [] || s == "-" || s == "+"
             || (!IsDigit(s[0]) && s[0] != '-' && s[0] != '+')
             || exists i :: 0 < i < |s| && !IsDigit(s[i])
    ensures ParseInt(s) == None
  {
  }

  /** Position of the first `c` in `s`, or `|s|` when there is none. */
  function IndexOf(s: string, c: char): (k: nat)
    ensures k <= |s|
    ensures forall i :: 0 <= i < k ==> s[i] != c
    ensures k < |s| ==> s[k] == c
  {
    if s == [] then 0 else if s[0] == c then 0 else 1 + IndexOf(s[1..], c)
  }

  lemma {:induction false} IndexOfIs(s: string, c: char, k: nat)
    requires k <= |s|
    requires forall i :: 0 <= i < k ==> s[i] != c
    requires k < |s| ==> s[k] == c
    ensures IndexOf(s, c) == k
  {
    if k > 0 {
      IndexOfIs(s[1..], c, k - 1);
    }
  }

  function Pow10(n: nat): (p: nat)
    ensures p > 0
  {
    if n == 0 then 1 else 10 * Pow10(n - 1)
  }

  /** The number `whole.fraction` where `fraction` has `places` digits. */
  function Decimal(whole: nat, fraction: nat, places: nat): (r: real)
    ensures r >= whole as real
  {
    whole as real + fraction as real / Pow10(places) as real
  }

  /** The unsigned part of a decimal literal: digits, optionally a point and
      more digits, with at least one digit in all. */
  function ParseUnsignedDecimal(body: string): Option<real> {
    var k := IndexOf(body, '.');
    var whole := body[..k];
    var fraction := if k < |body| then body[k + 1..] else [];
    if |whole| + |fraction| > 0 && AllDigits(whole) && AllDigits(fraction) then
      Some(Decimal(DigitsValue(whole), DigitsValue(fraction), |fraction|))
    else None
  }

  /** Python's `float(text)` on plain decimal texts: an optional sign and an
      unsigned decimal. Texts it rejects (for example a lone `-`) make
      `float` raise. */
  function ParseFloat(s: string): (r: Option<real>)
    ensures r.Some? ==> |s| > 0 && (IsDigit(s[0]) || s[0] == '.' || s[0] == '-' || s[0] == '+')
    ensures r.Some? && r.value < 0.0 ==> s[0] == '-'
  {
    if |s| > 0 && (s[0] == '-' || s[0] == '+') then
      UnsignedDecimalShape(s[1..]);
      match ParseUnsignedDecimal(s[1..])
      case None => None
      case Some(m) => Some(if s[0] == '-' then -m else m)
    else
      UnsignedDecimalShape(s);
      ParseUnsignedDecimal(s)
  }

  /** An unsigned decimal is non-negative and starts with a digit or the
      point. */
  lemma UnsignedDecimalShape(body: string)
    ensures ParseUnsignedDecimal(body).Some? ==>
              |body| > 0 && (IsDigit(body[0]) || body[0] == '.') && ParseUnsignedDecimal(body).value >= 0.0
  {
    UnsignedIff(body);
  }

  /** The unsigned decimal texts `float` accepts, stated without searching
      for the point: only digits and points, at most one point, and at
      least one digit. */
  predicate DecimalBody(b: string) {
    && (forall i :: 0 <= i < |b| ==> IsDigit(b[i]) || b[i] == '.')
    && (forall i, j :: 0 <= i < j < |b| && b[i] == '.' ==> b[j] != '.')
    && (exists i :: 0 <= i < |b| && IsDigit(b[i]))
  }

  /** The unsigned parser accepts exactly the texts of that grammar. */
  lemma UnsignedIff(b: string)
    ensures ParseUnsignedDecimal(b).Some? <==> DecimalBody(b)
  {
    if ParseUnsignedDecimal(b).Some? {
      AcceptedIsDecimalBody(b);
    }
    if DecimalBody(b) {
      DecimalBodyIsAccepted(b);
    }
  }

  lemma AcceptedIsDecimalBody(b: string)
    requires ParseUnsignedDecimal(b).Some?
    ensures DecimalBody(b)
  {
    var k := IndexOf(b, '.');
    var whole := b[..k];
    var fraction := if k < |b| then b[k + 1..] else [];
    forall i | 0 <= i < |b|
      ensures IsDigit(b[i]) || b[i] == '.'
    {
      if i < k {
        assert b[i] == whole[i];
      } else if i > k {
        assert b[i] == fraction[i - k - 1];
      }
    }
    forall i, j | 0 <= i < j < |b| && b[i] == '.'
      ensures b[j] != '.'
    {
      assert i == k;
      assert b[j] == fraction[j - k - 1];
    }
    if |whole| > 0 {
      assert b[0] == whole[0];
    } else {
      assert b[k + 1] == fraction[0];
    }
  }

  lemma DecimalBodyIsAccepted(b: string)
    requires DecimalBody(b)
    ensures ParseUnsignedDecimal(b).Some?
  {
    var k := IndexOf(b, '.');
    var whole := b[..k];
    var fraction := if k < |b| then b[k + 1..] else [];
    assert forall i :: 0 <= i < k ==> b[i] == whole[i];
    assert AllDigits(whole);
    forall i | 0 <= i < |fraction|
      ensures IsDigit(fraction[i])
    {
      assert b[k] == '.';
      assert b[i + k + 1] != '.';
    }
    var i :| 0 <= i < |b| && IsDigit(b[i]);
    assert i != k;
    if i > k {
      assert |fraction| > 0;
    }
  }

  /** `float` accepts exactly an optional sign followed by a decimal body:
      texts such as `1a`, `1.2.3` or `.` raise. */
  lemma ParseFloatIff(s: string)
    ensures ParseFloat(s).Some? <==>
              if |s| > 0 && (s[0] == '-' || s[0] == '+') then DecimalBody(s[1..]) else DecimalBody(s)
  {
    if |s| > 0 && (s[0] == '-' || s[0] == '+') {
      UnsignedIff(s[1..]);
    } else {
      UnsignedIff(s);
    }
  }

  lemma UnsignedDecimal(w: nat, f: string)
    requires AllDigits(f)
    ensures ParseUnsignedDecimal(NatText(w) + "." + f) == Some(Decimal(w, DigitsValue(f), |f|))
  {
    var t := NatText(w);
    var body := t + "." + f;
    assert forall i :: 0 <= i < |t| ==> body[i] == t[i];
    IndexOfIs(body, '.', |t|);
    assert body[..|t|] == t;
    assert body[|t| + 1..] == f;
    NatTextRoundTrip(w);
  }

  lemma UnsignedInteger(n: nat)
    ensures ParseUnsignedDecimal(NatText(n)) == Some(n as real)
  {
    var t := NatText(n);
    IndexOfIs(t, '.', |t|);
    assert t[..|t|] == t;
    NatTextRoundTrip(n);
    assert Decimal(n, DigitsValue([]), 0) == n as real;
  }

  lemma ParseFloatNegative(body: string, m: real)
    requires ParseUnsignedDecimal(body) == Some(m)
    ensures ParseFloat("-" + body) == Some(-m)
  {
    assert ("-" + body)[1..] == body;
  }

  /** A text starting with a digit has no sign to strip. */
  lemma ParseFloatUnsigned(body: string)
    requires |body| > 0 && IsDigit(body[0])
    ensures ParseFloat(body) == ParseUnsignedDecimal(body)
  {
  }

  /** A decimal literal `w.f` reads as the number it denotes. */
  lemma ParseFloatDecimal(w: nat, f: string)
    requires AllDigits(f)
    ensures ParseFloat(NatText(w) + "." + f) == Some(Decimal(w, DigitsValue(f), |f|))
  {
    var body := NatText(w) + "." + f;
    UnsignedDecimal(w, f);
    assert body[0] == NatText(w)[0];
    ParseFloatUnsigned(body);
  }

  /** An integer literal reads as that integer. */
  lemma ParseFloatInteger(i: int)
    ensures ParseFloat(IntText(i)) == Some(i as real)
  {
    if i < 0 {
      assert IntText(i) == "-" + NatText(-i);
      UnsignedInteger(-i);
      ParseFloatNegative(NatText(-i), (-i) as real);
    } else {
      assert IntText(i) == NatText(i);
      UnsignedInteger(i);
      ParseFloatUnsigned(NatText(i));
    }
  }

  /** The empty text and a lone sign are not numbers. */
  lemma ParseFloatRejectsSignOnly(s: string)
    requires s == [] || s == "-" || s == "+"
    ensures ParseFloat(s) == None
  {
    if s != [] {
      assert s[1..] == [];
    }
  }

  /** Python's `a <= b` on `str`: lexicographic by code point, a proper
      prefix before its extensions. */
  predicate StrLe(a: string, b: string)
    decreases |a|
  {
    |a| == 0 || (|b| > 0 && (a[0] < b[0] || (a[0] == b[0] && StrLe(a[1..], b[1..]))))
  }

  predicate StrLt(a: string, b: string) {
    StrLe(a, b) && a != b
  }

  lemma {:induction false} StrLeTotal(a: string, b: string)
    ensures StrLe(a, b) || StrLe(b, a)
    decreases |a|
  {
    if |a| > 0 && |b| > 0 && a[0] == b[0] {
      StrLeTotal(a[1..], b[1..]);
    }
  }

  lemma {:induction false} StrLeAntisymmetric(a: string, b: string)
    requires StrLe(a, b) && StrLe(b, a)
    ensures a == b
    decreases |a|
  {
    if |a| > 0 {
      StrLeAntisymmetric(a[1..], b[1..]);
      assert a == [a[0]] + a[1..] && b == [b[0]] + b[1..];
    }
  }

  lemma {:induction false} StrLeTransitive(a: string, b: string, c: string)
    requires StrLe(a, b) && StrLe(b, c)
    ensures StrLe(a, c)
    decreases |a|
  {
    if |a| > 0 && a[0] == b[0] && b[0] == c[0] {
      StrLeTransitive(a[1..], b[1..], c[1..]);
    }
  }

  lemma StrLtTransitive(a: string, b: string, c: string)
    requires StrLt(a, b) && StrLt(b, c)
    ensures StrLt(a, c)
  {
    StrLeTransitive(a, b, c);
    if a == c {
      StrLeAntisymmetric(a, b);
    }
  }
}

=== FILE: wrappers.dfy ===
/** Optional values and success-or-error results, used wherever the source
    has a missing value (a missing JSON key, pandas' NaN/NaT) or raises. */
module Wrappers {

  datatype Option<+T> = None | Some(value: T) {

    /** The encapsulated value, or `default` when there is none
        (Python's `dict.get(key, default)`). */
    function GetOr(default: T): T {
      match this
      case Some(v) => v
      case None => default
    }
  }

  /** Either a computed value or the error that stopped the computation. */
  datatype Result<+R, +E> = Success(value: R) | Failure(error: E)
}
